=== FILE: README.md ===
# ImageOutput core, modelled in Dafny

This project models the format-independent core of OpenImageIO's
`ImageOutput` base class (src/libimageio/imageoutput.cpp):

- **`to_native_rectangle`** and its wrappers **`to_native_scanline`** and
  **`to_native_tile`**. These cover:
  - stride defaulting (`auto_stride`);
  - the extents of an inclusive rectangle;
  - the contiguity test;
  - the zero-copy fast path;
  - the three-region scratch layout (contiguized copy rounded up to 4
    bytes, then the float intermediate, then the native output);
  - which conversion stages run;
  - which samples the gamma step touches (every channel except the alpha
    channel, pixel-major, channel-minor).
- **`write_image`**, the whole-image driver. It dispatches on the writer's
  capabilities (rectangles, then tiles, then scanlines) and runs the nested
  z/y(/x) loops with their byte offsets. It also handles failed writes and
  the progress callback: 0.0 first, then row reports, then cancellation and
  the final 1.0.

A run of `write_image` is a **trace**: the sequence of writer calls and
callback calls, each paired with its answer. The writer and the callback
are one oracle, `env(trace so far, request) -> bool`. The result is the
trace plus the value the driver returns. `WriteDriver.WriteImage` is the
reference definition, written as recursive step functions over loop
states. `WriteLoops.WriteImageLoops` runs the source's own nested `while`
loops, with the two corrected tile steps listed under "Left out", and is
proved to return exactly the same run.

Modules:

| file | module | contents |
|---|---|---|
| image_types.dfy | `ImageTypes` | spec fields, rectangles, strides, `auto_stride`, foreign quantities |
| contiguity.dfy | `Contiguity` | contiguity test as written and corrected, its meaning as "packed" |
| index_math.dfy | `IndexMath` | quotient/remainder and loop trip-count facts |
| gamma.dfy | `Gamma` | the gamma step as a function and as the source's loop |
| converter.dfy | `Converter` | `to_native_rectangle`/`_scanline`/`_tile`, value pipeline |
| write_driver.dfy | `WriteDriver` | trace model of `write_image` and its properties |
| write_loops.dfy | `WriteLoops` | the nested loops of `write_image`, equal to the reference |

Behaviour of the code that the model reproduces:

- **Shadowed `ok`.** The tile and scanline branches each declare their own
  `ok` (lines 208 and 221), hiding the one at line 195. Two consequences:
  - The early returns after a callback answer (lines 217 and 229) return
    the inner `ok`.
  - The final `return ok` (line 235) returns the outer one, which is always
    true, even when a write failed.
- **A failed scanline ends all scanline writing.** The scanline `ok` is
  declared outside the z loop, and the y loop's guard tests it. So after
  the first failed write no row of any later plane is written; the next
  plane does not start over. The code is authoritative here, and the model
  follows it.
- The 0.0 callback is answered before any write. An answer of true returns
  true with nothing written.
- Scanline rows are reported when `y & 15 == 0`. For the non-negative `y`
  of the loop this is `y % 16 == 0`.
- `(n + 3) & ~3` on the non-negative 32-bit size is modelled as
  `n + 3 - (n + 3) % 4`.

## Model

| member | source | states |
|---|---|---|
| Converter.AutoStridesArePacked | src/libimageio/imageoutput.cpp:110-124 | when the defaults `auto_stride` substitutes are the packed strides of the region, a call leaving all three strides to `AutoStride` reads a packed region, so the data are used as they are exactly when the format is the native one and gamma is 1 |
| Contiguity.ContiguousIffPacked | src/libimageio/imageoutput.cpp:113-120 | the corrected contiguity test holds exactly when the pixel stride is the pixel size and every pixel (x, y, z) of the region lies at byte `(x + w*(y + h*z)) * pixelSize` |
| Contiguity.PackedOffset | src/libimageio/imageoutput.cpp:118-120 | a region the corrected test accepts has each pixel at its packed offset |
| Contiguity.AsWrittenAgreesOffFlatVolumes | src/libimageio/imageoutput.cpp:118-120 | the test as written and the corrected test agree on every region that is not exactly one row high and several planes deep |
| Contiguity.AsWrittenAcceptsUnpacked | src/libimageio/imageoutput.cpp:120 | the test as written accepts strides (4, 8, 8) for a 1×1×2 region of 4-byte pixels, which are not packed |
| Contiguity.ContiguousAsWritten | src/libimageio/imageoutput.cpp:118-120 | the contiguity test as the source writes it, plane stride compared with `ystride*height` (the as-written half of the line 120 finding) |
| Contiguity.Contiguous | src/libimageio/imageoutput.cpp:118-120 | the corrected test the converter uses, plane stride compared with the packed plane size `xstride*width*height` |
| Converter.Round4 | src/libimageio/imageoutput.cpp:134-135 | the rounded size is a multiple of 4 and is the smallest one not below the input |
| Converter.ToNativeRectangle | src/libimageio/imageoutput.cpp:103-178 | zero copy exactly when the formats agree, the region is contiguous and gamma is 1. A non-empty rectangle otherwise gets a scratch layout: a 4-aligned contiguization region (empty when contiguous, otherwise the source bytes rounded up by less than 4), one float per value, one native pixel per pixel, total within `INT_MAX`. Contiguization runs iff not contiguous, float conversion iff not (float source and gamma 1), gamma iff gamma ≠ 1. An empty rectangle off the fast path is an error |
| Converter.ToNativeScanline | src/libimageio/imageoutput.cpp:80-87 | a row is borrowed exactly when format and gamma allow it and the pixel stride is the pixel size; a converted row holds `width` pixels; failure only for a width below 1 |
| Converter.ToNativeTile | src/libimageio/imageoutput.cpp:91-99 | a converted tile holds `tile_width × tile_height × max(1, tile_depth)` pixels; failure only for a zero tile width or height |
| Converter.GammaSparesAlpha | src/libimageio/imageoutput.cpp:149-177 | with gamma ≠ 1, an alpha sample comes out as with gamma 1, and any other sample comes out as the quantized, corrected float of its source value |
| Converter.IdentityConversionRoundTrips | src/libimageio/imageoutput.cpp:122-177 | native-format data with gamma 1 forced down the conversion route come back unchanged whenever quantization inverts float conversion |
| Converter.FloatStage | src/libimageio/imageoutput.cpp:149-172 | the float buffer has one value per source value: the source itself for a float source with gamma 1, otherwise the converted values, gamma-corrected when gamma ≠ 1 |
| Converter.NativeValues | src/libimageio/imageoutput.cpp:174-177 | the native output has one quantized value per value of the float buffer |
| Converter.StagesChooseFloatBuffer | src/libimageio/imageoutput.cpp:122-172 | the stage flags of a converted result pick the float buffer: no float conversion means the source data, conversion without gamma the converted values, gamma the converted values corrected outside alpha |
| Gamma.GammaCorrect | src/libimageio/imageoutput.cpp:159-165 | the buffer keeps its length; sample `p*nchannels + c` is corrected iff `c != alpha_channel`, otherwise kept |
| Gamma.ApplyGamma | src/libimageio/imageoutput.cpp:161-165 | the pixel/channel loops with one running position compute exactly `GammaCorrect` |
| IndexMath.TripsBound | src/libimageio/imageoutput.cpp:209-211 | the `i`-th value `i*step` of a loop variable is below the extent exactly while `i` is below the trip count |
| WriteDriver.WriteImage | src/libimageio/imageoutput.cpp:182-236 | a rectangle writer gets exactly one full-image `write_rectangle`, whose answer is returned; with a callback the first event is the 0.0 call, and an answer of true ends the run there, returning true; with no callback every event is a write |
| WriteLoops.WriteImageLoops | src/libimageio/imageoutput.cpp:182-236 | the source's control flow, with the two corrected tile steps (`x += tile_width`, `z += max(1, tile_depth)`) listed under Left out, produces exactly the trace and return value of `WriteImage` |
| WriteLoops.ScanlineLoops | src/libimageio/imageoutput.cpp:219-231 | the z and y scanline loops, with `ok` declared outside the z loop, end in the reference loop state |
| WriteLoops.ScanPlane | src/libimageio/imageoutput.cpp:223-230 | one plane's y loop advances the reference by `height` scanlines, or ends where the driver returns |
| WriteLoops.ScanlineTrip | src/libimageio/imageoutput.cpp:224-229 | one y-loop body (write row `y` of plane `z`, report when `y % 16 == 0`) is exactly reference step `z*height + y` |
| WriteLoops.TileLoops | src/libimageio/imageoutput.cpp:209-218 | the z, y and x tile loops, with the two corrected steps listed under Left out (`x += tile_width` instead of line 211's `y += tile_width`, and `z += max(1, tile_depth)`), always end, in the reference loop state |
| WriteLoops.TilePlane | src/libimageio/imageoutput.cpp:210-218 | one tile plane's y loop advances the reference by one plane of tile rows, or ends where the driver returns |
| WriteLoops.TileRowTrip | src/libimageio/imageoutput.cpp:211-217 | one tile row followed by its `y/height` report is one reference row step |
| WriteLoops.TileRowLoop | src/libimageio/imageoutput.cpp:211-214 | the x loop (with `x` advancing) writes the row's tiles while `ok` holds and leaves the stop flag alone |
| WriteLoops.TileTrip | src/libimageio/imageoutput.cpp:212-214 | one x-loop body at `x = ix*tile_width` is exactly the reference's write of tile `ix` of the row, folding its answer into `ok` and leaving the stop flag alone |
| WriteDriver.LoopsInv | src/libimageio/imageoutput.cpp:209-230 | the loops keep the trace invariant: writes are loop units in order, every write but the last succeeded, `ok` says whether all did, only the last event can be a stop, and with no callback only writes are added |
| WriteDriver.WritesFollowLoopOrder | src/libimageio/imageoutput.cpp:209-230 | off the rectangle path the writes are units 0, 1, 2, … of the loop, never more than it has, and nothing is written after a failed write |
| WriteDriver.EveryUnitWritten | src/libimageio/imageoutput.cpp:209-230 | with no cancellation and no failed write, every unit of the loop is written |
| WriteDriver.OnlyLastEventStops | src/libimageio/imageoutput.cpp:196-229 | only the last event can be a callback answer that ended the run, and the run was cancelled exactly when its last event is one |
| WriteDriver.RunEnding | src/libimageio/imageoutput.cpp:195-235 | a cancelled run returns whether every write succeeded; otherwise it returns true whatever the writes answered, after a final 1.0 call when there is a callback |
| WriteDriver.FailedScanlineStillReturnsTrue | src/libimageio/imageoutput.cpp:221-235 | with no callback, a scanline writer whose first write fails gets exactly that one write and the call still returns true |
| WriteDriver.ScanlineWritesInOrder | src/libimageio/imageoutput.cpp:222-226 | every scanline write is a row inside the image at offset `z*zstride + y*ystride` with the caller's pixel stride, and writes go in z-major, y-minor order without repeats |
| WriteDriver.ScanlineBounds | src/libimageio/imageoutput.cpp:222-226 | scanline `k` of the loop is row `k % height` of plane `k / height`, inside the image, at offset `z*zstride + y*ystride` |
| WriteDriver.ScanlineOrder | src/libimageio/imageoutput.cpp:222-223 | a later scanline is in a later plane, or lower in the same plane |
| WriteDriver.ScanlineReportFollowsRow | src/libimageio/imageoutput.cpp:227-229 | every report before the end directly follows the write of a row `y` with `y % 16 == 0` and reports `y/height` |
| WriteDriver.ScanlineRowIsReported | src/libimageio/imageoutput.cpp:227-229 | the write of every row with `y % 16 == 0` is directly followed by its `y/height` report |
| WriteDriver.ScanlineProgressMonotone | src/libimageio/imageoutput.cpp:196-233 | on a single-plane image the reported fractions never decrease: 0.0, then rows over `height`, then 1.0 |
| WriteDriver.TileUnit | src/libimageio/imageoutput.cpp:209-214 | tile `m` of the loop is column `m % across`, row `(m / across) % down`, plane `(m / across) / down`, at the matching byte offset |
| WriteDriver.TileInsideImage | src/libimageio/imageoutput.cpp:209-214 | every tile of the loop starts inside the image |
| WriteDriver.PixelHasTile | src/libimageio/imageoutput.cpp:209-214 | every pixel of the image, edge pixels included, lies in some tile of the loop |
| WriteDriver.TileOfPixelUnique | src/libimageio/imageoutput.cpp:209-214 | no pixel lies in two different tiles of the loop |
| WriteDriver.TilesCoverImage | src/libimageio/imageoutput.cpp:209-218 | with no cancellation and no failed write, the tiles written cover every pixel exactly once |
| WriteDriver.TileRowsReportedInOrder | src/libimageio/imageoutput.cpp:196-218 | with a callback on the tile path the reports are the 0.0 call and then `y/height` for tile rows 0, 1, 2, … in loop order, one per row, and every row is reported unless a callback answer ended the run (rows after a failed write included) |
| WriteDriver.TileReportFollowsRow | src/libimageio/imageoutput.cpp:210-217 | the tile-path report preceded by `j` reports is that of row `j - 1` and comes after at most `j` rows of tile writes, exactly `j` rows when every write so far succeeded |
| WriteDriver.TileRowAsWritten | src/libimageio/imageoutput.cpp:211-214 | the x loop as written (step `y += tile_width`), run for at most `fuel` trips; at a column inside the image it exits only once `ok` is false |
| WriteDriver.TileRowAsWrittenNeverEnds | src/libimageio/imageoutput.cpp:211 | the x loop as written, on an image at least one pixel wide and against a writer whose tile writes succeed, is still running after any number of trips |
| WriteDriver.ZLoopAsWritten | src/libimageio/imageoutput.cpp:209-218 | the z loop as written (step `z += tile_depth`), run for at most `fuel` trips, with the line 211 x loop taken as corrected so that the line 209 defect stands alone; it exits only past the last plane or on a callback answer that ends the run |
| WriteDriver.FlatTilesZLoopNeverEnds | src/libimageio/imageoutput.cpp:209 | with `tile_depth == 0` on an image at least one plane deep and a callback that never asks to stop (or none), the z loop as written is still running after any number of trips |

## Left out

- The data itself. Only byte offsets and sizes are modelled; the requests
  carry offsets, not data pointers, and not the `format` argument that
  `write_image` forwards unchanged.
- The bodies of the foreign calls:
  - `ParamBaseTypeSize`, `pixel_bytes` and the `auto_stride` defaults are
    fields of `Foreign`;
  - `convert_to_float`, `convert_from_float` and `powf` are function
    parameters (`Numerics`);
  - `contiguize` is only recorded as a stage that runs;
  - `supports` is the two capability flags of `Writer`;
  - `write_rectangle`, `write_tile`, `write_scanline` and the progress
    callback are the `env` oracle.
- Floating point. `gamma` is a real number and only the tests
  `gamma == 1` matter. The fraction `(float)y/height` is kept as the pair
  (y, height), and the 0.0 and 1.0 calls as 0/1 and 1/1.
- The quantization settings passed to `convert_from_float`. They belong to
  the `fromFloat` parameter, a deterministic function of one value. So
  `quant_dither` noise, which differs from sample to sample, is not
  represented.
- Converter.GammaSparesAlpha: its alpha clause compares two conversions
  sample by sample, which relies on that deterministic `fromFloat`. With
  dithering on, the two would not be identical. It, and
  `Converter.IdentityConversionRoundTrips`, also assume that
  `convert_to_float` from float to float is a copy
  (`forall v :: num.toFloat(Float, v) == v`), a property of the foreign
  conversion that is not part of this model.
- Allocation failure. `scratch.resize` at line 138 can throw
  `std::bad_alloc`; the model never fails to allocate.
- ImageTypes.ResolveStrides: the body of `auto_stride` is not part of this
  model. Its defaults are an uninterpreted triple (`Foreign.defaultStrides`);
  the model says more only where they are the packed strides
  (`Converter.AutoStridesArePacked`). Since `auto_stride` sees only the
  spec and the strides passed in (lines 110 and 188), not the format or
  the region, that premise holds only when the region's packed strides are
  what the spec alone yields, for example the full image in the native
  format.
- `error()` and `send_to_output`/`send_to_client`: message formatting and
  empty stubs.
- The demo programs under src/myTool, which only do console and file I/O.
- 32-bit overflow of the byte offsets `z*zstride + y*ystride + x*xstride`.
  These are pointer arithmetic on `stride_t` and are computed exactly here.
- WriteDriver.WriteImage: the tile loop counters `x`, `y` and `z` are
  32-bit `int`s in the source (lines 209-211), and the step past the last
  tile can overflow: with `height = 2147483647` and `tile_height = 64` the
  last row starts at 2147483584 and `y += 64` passes `INT_MAX`, which is
  undefined behaviour. The model's counters are unbounded, so
  `WriteLoops.TileLoops`, `WriteDriver.TilesCoverImage` and
  `WriteDriver.PixelHasTile` also speak of images whose extent plus tile
  size minus 1 exceeds `INT_MAX`, where the source has no defined result.
- Converter.ToNativeRectangle: requires `NoSizeOverflow`. Once the fast
  path is missed, three values must fit in a 32-bit `int`: the pixel count
  of line 130, the unrounded contiguization size plus 3 (line 134), and
  the scratch total of line 138, which bounds every other intermediate.
  The source does not check this.
- Converter.ToNativeRectangle: returns `Failure(NonPositiveExtent)` for an
  inverted or empty rectangle that misses the fast path. The source goes
  on to size the scratch buffer from the product of the three extents,
  which is zero, negative, or even positive when two extents are negative
  (-1 × -1 × 1 is one pixel), and then calls `contiguize` with
  non-positive extents, which has no defined result.
- WriteDriver.WriteImage: requires `tile_height >= 1` on the tile path.
  With `tile_height == 0` on an image at least one row high, the y loop
  never advances. It ends only when the callback answers true.
- WriteDriver.WriteImage: runs the tile z loop with step
  `max(1, tile_depth)`, reading `tile_depth == 0` as 2-D tiles as line 97
  does. The loop as written (`z += tile_depth`) is modelled separately; see
  Findings.
- WriteDriver.WriteImage: runs the tile x loop with `x += tile_width`, the
  evident intent. The loop as written (`y += tile_width`) is modelled
  separately; see Findings.
- Converter.ToNativeRectangle: decides contiguity with the corrected test.
  The test as written is modelled separately; see Findings.
- Converter.ToNativeScanline: covers only the sizes of the float and
  native regions. The contiguization region follows from
  `ToNativeRectangle` on the one-row rectangle.
- Converter.ToNativeTile: does not state the borrowed case separately. It
  is `ToNativeRectangle` on the tile rectangle.
- Threading, plugin loading and pointer aliasing.

## Findings

| source | as written | input that shows it | evidently intended | confidence | as-written member | corrected member |
|---|---|---|---|---|---|---|
| src/libimageio/imageoutput.cpp:211 | the tile x loop's step is `y += spec.tile_width`, so `x` never advances and the loop ends only after a failed write, writing tile (0, y, z) for ever larger `y` | any tiled image with `width >= 1` and a writer whose `write_tile` always succeeds: the loop never ends | `x += spec.tile_width`, so that each row of tiles is written once, left to right | high (not executed) | WriteDriver.TileRowAsWrittenNeverEnds | WriteDriver.TilesCoverImage |
| src/libimageio/imageoutput.cpp:120 | the plane stride is compared with `ystride*height`, even when `height == 1` has excused `ystride` from matching the packed row size | a 1×1×2 region of 4-byte pixels with strides (4, 8, 8): taken as contiguous although plane 1 is at byte 8, not 4, so the data are returned or converted as if packed | compare `zstride` with the packed plane size `xstride*width*height` | medium (not executed) | Contiguity.AsWrittenAcceptsUnpacked | Contiguity.ContiguousIffPacked |
| src/libimageio/imageoutput.cpp:209 | the tile z loop's step is `z += spec.tile_depth`, although `to_native_tile` (line 97) treats `tile_depth == 0` as 2-D tiles one plane deep | 2-D tiles (`tile_depth == 0`) on an image with `depth >= 1` and a callback that never answers true, or no callback: `z` stays 0 and the loop never ends, rewriting plane 0 while the writes succeed; only a true callback answer at line 216 ends it, and `depth <= 0` never enters the loop. The as-written member isolates this defect: its x loop is the corrected one, whereas in the literal source the line 211 x loop never leaves the first tile column of plane 0 | step `max(1, tile_depth)`, so each plane of tiles is written once | medium (not executed) | WriteDriver.FlatTilesZLoopNeverEnds | WriteLoops.TileLoops |

=== FILE: contiguity.dfy ===
/** The contiguity classification at the top of `to_native_rectangle`:
    may a w×h×d region with the given strides be read as one packed block? */
module Contiguity {
  import opened ImageTypes

  /** Byte offset of pixel (x, y, z) of a region from the region's first pixel. */
  function Offset(s: Strides, x: int, y: int, z: int): int
  {
    x * s.x + y * s.y + z * s.z
  }

  /** Index, counted in pixels, of pixel (x, y, z) in a packed w×h×d block. */
  function PackedIndex(w: int, h: int, x: int, y: int, z: int): int
  {
    x + w * (y + h * z)
  }

  /** What "contiguous" means: every pixel of the region sits exactly where a
      packed block of `pixelSize`-byte pixels would put it. */
  ghost predicate Packed(s: Strides, w: int, h: int, d: int, pixelSize: int)
  {
    forall x, y, z | 0 <= x < w && 0 <= y < h && 0 <= z < d ::
      Offset(s, x, y, z) == PackedIndex(w, h, x, y, z) * pixelSize
  }

  /** The test as the source writes it: the plane stride is compared with
      `ystride * height`, even when `height == 1` has already excused
      `ystride` from matching the packed row size. */
  predicate ContiguousAsWritten(s: Strides, w: int, h: int, d: int, pixelSize: int)
  {
    s.x == pixelSize
    && (s.y == s.x * w || h == 1)
    && (s.z == s.y * h || d == 1)
  }

  /** The corrected test the converter uses: the plane stride is compared
      with the packed plane size `xstride * width * height`. */
  predicate Contiguous(s: Strides, w: int, h: int, d: int, pixelSize: int)
  {
    s.x == pixelSize
    && (s.y == s.x * w || h == 1)
    && (s.z == s.x * w * h || d == 1)
  }

  /** The corrected test is exact: it holds iff the pixel stride is the pixel
      size and the whole region is laid out packed. */
  lemma ContiguousIffPacked(s: Strides, w: int, h: int, d: int, pixelSize: int)
    requires w >= 1 && h >= 1 && d >= 1
    ensures Contiguous(s, w, h, d, pixelSize) <==> s.x == pixelSize && Packed(s, w, h, d, pixelSize)
  {
    if Contiguous(s, w, h, d, pixelSize) {
      forall x, y, z | 0 <= x < w && 0 <= y < h && 0 <= z < d
        ensures Offset(s, x, y, z) == PackedIndex(w, h, x, y, z) * pixelSize
      {
        PackedOffset(s, w, h, d, pixelSize, x, y, z);
      }
    }
    if s.x == pixelSize && Packed(s, w, h, d, pixelSize) {
      if h != 1 {
        assert Offset(s, 0, 1, 0) == PackedIndex(w, h, 0, 1, 0) * pixelSize;
      }
      if d != 1 {
        assert Offset(s, 0, 0, 1) == PackedIndex(w, h, 0, 0, 1) * pixelSize;
      }
    }
  }

  /** One pixel of a region the corrected test accepts lies at its packed offset. */
  lemma PackedOffset(s: Strides, w: int, h: int, d: int, pixelSize: int, x: int, y: int, z: int)
    requires Contiguous(s, w, h, d, pixelSize)
    requires 0 <= x < w && 0 <= y < h && 0 <= z < d
    ensures Offset(s, x, y, z) == PackedIndex(w, h, x, y, z) * pixelSize
  {
    var row := pixelSize * w;
    var plane := row * h;
    assert y * s.y == y * row by {
      if h == 1 { assert y == 0; } else { assert s.y == row; }
    }
    assert z * s.z == z * plane by {
      if d == 1 { assert z == 0; } else { assert s.z == plane; }
    }
    RingStep(x, y, z, w, h, pixelSize);
  }

  /** The ring identity behind `PackedOffset`, kept apart so the solver sees
      only this. */
  lemma RingStep(x: int, y: int, z: int, w: int, h: int, p: int)
    ensures x * p + y * (p * w) + z * ((p * w) * h) == (x + w * (y + h * z)) * p
  {
    assert (x + w * (y + h * z)) * p == x * p + (w * (y + h * z)) * p;
    assert (w * (y + h * z)) * p == (w * y) * p + (w * (h * z)) * p;
    assert (w * y) * p == y * (p * w);
    assert (w * (h * z)) * p == z * ((p * w) * h);
  }

  /** Wherever the source's test can be wrong — a region one row high and
      more than one plane deep — aside, the two tests agree. */
  lemma AsWrittenAgreesOffFlatVolumes(s: Strides, w: int, h: int, d: int, pixelSize: int)
    requires h != 1 || d == 1
    ensures ContiguousAsWritten(s, w, h, d, pixelSize) <==> Contiguous(s, w, h, d, pixelSize)
  {
    if h != 1 && d != 1 && s.x == pixelSize && s.y == s.x * w {
      assert s.y * h == s.x * w * h;
    }
  }

  /** The source's test accepts a one-row, two-plane region whose row stride
      is padded: plane 1 starts at byte 8 although a packed block of 4-byte
      pixels would put it at byte 4, so the data are taken as packed when
      they are not. */
  lemma AsWrittenAcceptsUnpacked()
    ensures ContiguousAsWritten(Strides(4, 8, 8), 1, 1, 2, 4)
    ensures !Packed(Strides(4, 8, 8), 1, 1, 2, 4)
    ensures !Contiguous(Strides(4, 8, 8), 1, 1, 2, 4)
  {
    ContiguousIffPacked(Strides(4, 8, 8), 1, 1, 2, 4);
  }
}

=== FILE: converter.dfy ===
/** `to_native_rectangle` and its two wrappers: the zero-copy decision, the
    three-region scratch layout and the order of the conversion stages, plus
    the value pipeline with the floating-point kernels left as parameters. */
module Converter {
  import opened ImageTypes
  import Contiguity
  import Gamma

  /** `(n + 3) & ~3` on a non-negative 32-bit int: clearing the two low bits
      is subtracting the remainder by 4. */
  function Round4(n: nat): (r: nat)
    requires n <= INT_MAX - 3
    ensures r % 4 == 0
    ensures n <= r < n + 4
  {
    (n + 3) - (n + 3) % 4
  }

  /** The scratch buffer as three back-to-back regions: the contiguized copy
      of the source, the float intermediate and the native output. */
  datatype ScratchLayout = ScratchLayout(contiguousSize: nat, floatSize: nat, nativeSize: nat)
  {
    function FloatOffset(): nat { contiguousSize }
    function NativeOffset(): nat { contiguousSize + floatSize }
    function Total(): nat { contiguousSize + floatSize + nativeSize }
  }

  /** What `to_native_rectangle` hands back: the caller's own data (no
      scratch use at all), or the native-output region of a scratch buffer
      resized to `layout`, together with the stages that ran. */
  datatype Conversion =
    | Borrowed
    | Converted(layout: ScratchLayout, contiguized: bool, floatConverted: bool, gammaApplied: bool)

  /** An inverted or empty rectangle that is not served by the fast path.
      The source goes on to size the scratch buffer from the product of the
      extents (zero, negative, or positive when two are negative) and to
      contiguize with non-positive extents; the model reports it instead. */
  datatype ConvertError = NonPositiveExtent

  datatype Result<T, E> = Success(value: T) | Failure(error: E)

  /** Bytes of one source pixel: `nchannels * ParamBaseTypeSize(format)`. */
  function SourcePixelSize(spec: ImageSpec, foreign: Foreign, format: Format): nat
  {
    spec.nchannels * foreign.typeSize(format)
  }

  /** Whether the region can be read as one packed block (corrected test,
      see `Contiguity.Contiguous`). */
  predicate RegionContiguous(spec: ImageSpec, foreign: Foreign, r: Rect, format: Format, s: Strides)
  {
    Contiguity.Contiguous(s, r.Width(), r.Height(), r.Depth(), SourcePixelSize(spec, foreign, format))
  }

  /** Lines 122-124: no conversion at all is needed. */
  predicate FastPath(spec: ImageSpec, foreign: Foreign, r: Rect, format: Format, s: Strides)
  {
    format == spec.format && RegionContiguous(spec, foreign, r, format, s) && spec.gamma == 1.0
  }

  /** Lines 130-137 for a non-empty rectangle. */
  function RawContiguousSize(spec: ImageSpec, foreign: Foreign, r: Rect, format: Format, contiguous: bool): nat
    requires r.NonEmpty()
  {
    if contiguous then 0 else r.Pixels() * spec.nchannels * foreign.typeSize(format)
  }

  /** The 32-bit size arithmetic of lines 130-138 does not overflow: the
      pixel count of line 130 fits, the unrounded contiguization size plus
      the 3 added at line 134 fits, and so does the scratch total of line
      138, which bounds every other intermediate. */
  predicate SizesFit(spec: ImageSpec, foreign: Foreign, r: Rect, format: Format, contiguous: bool)
    requires r.NonEmpty()
  {
    var raw := RawContiguousSize(spec, foreign, r, format, contiguous);
    && r.Pixels() <= INT_MAX
    && raw + 3 <= INT_MAX
    && Round4(raw) + r.Pixels() * spec.nchannels * FLOAT_BYTES + r.Pixels() * foreign.pixelBytes <= INT_MAX
  }

  /** What the source needs of its caller: once the fast path is not taken
      for a non-empty rectangle, the scratch sizes fit in 32 bits. */
  predicate NoSizeOverflow(spec: ImageSpec, foreign: Foreign, r: Rect, format: Format, s: Strides)
  {
    (r.NonEmpty() && !FastPath(spec, foreign, r, format, s))
    ==> SizesFit(spec, foreign, r, format, RegionContiguous(spec, foreign, r, format, s))
  }

  /** The scratch layout of lines 130-138. */
  function Layout(spec: ImageSpec, foreign: Foreign, r: Rect, format: Format, contiguous: bool): ScratchLayout
    requires r.NonEmpty() && SizesFit(spec, foreign, r, format, contiguous)
  {
    ScratchLayout(
      Round4(RawContiguousSize(spec, foreign, r, format, contiguous)),
      r.Pixels() * spec.nchannels * FLOAT_BYTES,
      r.Pixels() * foreign.pixelBytes)
  }

  /** `to_native_rectangle` (lines 103-178). */
  function ToNativeRectangle(spec: ImageSpec, foreign: Foreign, r: Rect, format: Format,
                             xs: StrideArg, ys: StrideArg, zs: StrideArg): (res: Result<Conversion, ConvertError>)
    requires NoSizeOverflow(spec, foreign, r, format, ResolveStrides(foreign, xs, ys, zs))
    // zero copy exactly when formats agree, data are packed and gamma is 1
    ensures res == Success(Borrowed)
            <==> FastPath(spec, foreign, r, format, ResolveStrides(foreign, xs, ys, zs))
    ensures res.Failure? <==> !FastPath(spec, foreign, r, format, ResolveStrides(foreign, xs, ys, zs)) && !r.NonEmpty()
    ensures res.Success? && res.value.Converted? ==>
      var contiguous := RegionContiguous(spec, foreign, r, format, ResolveStrides(foreign, xs, ys, zs));
      var values := r.Pixels() * spec.nchannels;
      var layout := res.value.layout;
      // the contiguized copy gets a 4-byte aligned region just big enough
      && layout.FloatOffset() % 4 == 0
      && (contiguous ==> layout.contiguousSize == 0)
      && (!contiguous ==> values * foreign.typeSize(format) <= layout.contiguousSize
                          < values * foreign.typeSize(format) + 4)
      // one float per value, one native pixel per pixel
      && layout.floatSize == values * FLOAT_BYTES
      && layout.nativeSize == r.Pixels() * foreign.pixelBytes
      && layout.Total() <= INT_MAX
      // the stages that run
      && (res.value.contiguized <==> !contiguous)
      && (res.value.floatConverted <==> !(format == Float && spec.gamma == 1.0))
      && (res.value.gammaApplied <==> spec.gamma != 1.0)
  {
    var s := ResolveStrides(foreign, xs, ys, zs);
    var contiguous := RegionContiguous(spec, foreign, r, format, s);
    if format == spec.format && contiguous && spec.gamma == 1.0 then
      Success(Borrowed)
    else if !r.NonEmpty() then
      Failure(NonPositiveExtent)
    else
      var skipFloat := format == Float && spec.gamma == 1.0;
      Success(Converted(Layout(spec, foreign, r, format, contiguous),
                        !contiguous, !skipFloat, !skipFloat && spec.gamma != 1.0))
  }

  /** The rectangle `to_native_scanline` converts: one full row. */
  function ScanlineRect(spec: ImageSpec): Rect
  {
    Rect(0, spec.width - 1, 0, 0, 0, 0)
  }

  /** The rectangle `to_native_tile` converts: one full tile, one plane deep
      when `tile_depth` is 0. */
  function TileRect(spec: ImageSpec): Rect
  {
    Rect(0, spec.tileWidth - 1, 0, spec.tileHeight - 1, 0, Max(0, spec.tileDepth - 1))
  }

  function Max(a: int, b: int): int { if a < b then b else a }

  /** `to_native_scanline` (lines 80-87): one row of `width` pixels, with the
      row and plane strides passed as 0.  Only the pixel stride can decide
      contiguity, and a converted row holds `width` pixels. */
  function ToNativeScanline(spec: ImageSpec, foreign: Foreign, format: Format, xs: StrideArg)
    : (res: Result<Conversion, ConvertError>)
    requires NoSizeOverflow(spec, foreign, ScanlineRect(spec), format, ResolveStrides(foreign, xs, Given(0), Given(0)))
    ensures res == Success(Borrowed)
            <==> format == spec.format && spec.gamma == 1.0
                 && ResolveStrides(foreign, xs, Given(0), Given(0)).x == SourcePixelSize(spec, foreign, format)
    ensures res.Failure? ==> spec.width < 1
    ensures res.Success? && res.value.Converted? ==>
      res.value.layout.floatSize == spec.width * spec.nchannels * FLOAT_BYTES
      && res.value.layout.nativeSize == spec.width * foreign.pixelBytes
  {
    ToNativeRectangle(spec, foreign, ScanlineRect(spec), format, xs, Given(0), Given(0))
  }

  /** `to_native_tile` (lines 91-99): one tile of
      `tile_width × tile_height × max(1, tile_depth)` pixels. */
  function ToNativeTile(spec: ImageSpec, foreign: Foreign, format: Format, xs: StrideArg, ys: StrideArg, zs: StrideArg)
    : (res: Result<Conversion, ConvertError>)
    requires NoSizeOverflow(spec, foreign, TileRect(spec), format, ResolveStrides(foreign, xs, ys, zs))
    ensures res.Failure? ==> spec.tileWidth == 0 || spec.tileHeight == 0
    ensures res.Success? && res.value.Converted? ==>
      var pixels := spec.tileWidth * spec.tileHeight * (if spec.tileDepth == 0 then 1 else spec.tileDepth);
      res.value.layout.floatSize == pixels * spec.nchannels * FLOAT_BYTES
      && res.value.layout.nativeSize == pixels * foreign.pixelBytes
  {
    ToNativeRectangle(spec, foreign, TileRect(spec), format, xs, ys, zs)
  }

  /** The floating-point kernels the converter calls: `convert_to_float`
      for one sample of a given format, `convert_from_float` with the spec's
      quantization settings, and `powf(v, 1/gamma)`. */
  datatype Numerics<!V> = Numerics(toFloat: (Format, V) -> V, fromFloat: V -> V, correct: V -> V)

  /** `convert_to_float` of lines 155-156: every source value converted on its own. */
  function ToFloats<V>(format: Format, packed: seq<V>, num: Numerics<V>): (f: seq<V>)
    ensures |f| == |packed|
    ensures forall i | 0 <= i < |f| :: f[i] == num.toFloat(format, packed[i])
  {
    seq(|packed|, i requires 0 <= i < |packed| => num.toFloat(format, packed[i]))
  }

  /** The float buffer of lines 149-172, built from the packed source
      values: a float source with gamma 1 is used as it is; otherwise every
      value is converted to float and, when gamma is not 1, gamma-corrected. */
  function FloatStage<V>(spec: ImageSpec, format: Format, packed: seq<V>, pixels: nat, num: Numerics<V>): (f: seq<V>)
    requires |packed| == pixels * spec.nchannels
    ensures |f| == |packed|
  {
    if format == Float && spec.gamma == 1.0 then packed
    else
      var floats := ToFloats(format, packed, num);
      if spec.gamma != 1.0 then Gamma.GammaCorrect(floats, pixels, spec.nchannels, spec.alphaChannel, num.correct)
      else floats
  }

  /** The native values of lines 174-177: the float stage quantized value by value. */
  function NativeValues<V>(spec: ImageSpec, format: Format, packed: seq<V>, pixels: nat, num: Numerics<V>): (out: seq<V>)
    requires |packed| == pixels * spec.nchannels
    ensures |out| == |packed|
  {
    var f := FloatStage(spec, format, packed, pixels, num);
    seq(|f|, i requires 0 <= i < |f| => num.fromFloat(f[i]))
  }

  /** Gamma leaves the alpha channel alone: each alpha value comes out as it
      would with gamma 1, and each other value comes out as the quantized,
      corrected float of its source value.  Converting a float to float is
      taken to be a copy. */
  lemma GammaSparesAlpha<V>(spec: ImageSpec, format: Format, packed: seq<V>, pixels: nat, num: Numerics<V>,
                            p: nat, c: nat)
    requires |packed| == pixels * spec.nchannels
    requires forall v :: num.toFloat(Float, v) == v
    requires spec.gamma != 1.0
    requires p < pixels && c < spec.nchannels
    ensures Gamma.ValueIndex(p, c, spec.nchannels) < |packed|
    ensures var i := Gamma.ValueIndex(p, c, spec.nchannels);
      var plain := spec.(gamma := 1.0);
      c == spec.alphaChannel ==> NativeValues(spec, format, packed, pixels, num)[i]
                                 == NativeValues(plain, format, packed, pixels, num)[i]
    ensures var i := Gamma.ValueIndex(p, c, spec.nchannels);
      c != spec.alphaChannel ==> NativeValues(spec, format, packed, pixels, num)[i]
                                 == num.fromFloat(num.correct(num.toFloat(format, packed[i])))
  {
    Gamma.ValueIndexInBuffer(p, c, pixels, spec.nchannels);
    var i := Gamma.ValueIndex(p, c, spec.nchannels);
    var plain := spec.(gamma := 1.0);
    var floats := ToFloats(format, packed, num);
    var g := Gamma.GammaCorrect(floats, pixels, spec.nchannels, spec.alphaChannel, num.correct);
    assert FloatStage(spec, format, packed, pixels, num) == g;
    if c == spec.alphaChannel {
      assert g[i] == num.toFloat(format, packed[i]);
      assert FloatStage(plain, format, packed, pixels, num)[i] == num.toFloat(format, packed[i]);
    }
  }

  /** Forcing the conversion route on data already in the native format,
      with gamma 1, reproduces the data exactly when quantizing a converted
      value gives the value back: the result agrees with the zero-copy path. */
  lemma IdentityConversionRoundTrips<V>(spec: ImageSpec, packed: seq<V>, pixels: nat, num: Numerics<V>)
    requires |packed| == pixels * spec.nchannels
    requires spec.gamma == 1.0
    requires forall v :: num.toFloat(Float, v) == v
    requires forall v :: num.fromFloat(num.toFloat(spec.format, v)) == v
    ensures NativeValues(spec, spec.format, packed, pixels, num) == packed
  {
    var out := NativeValues(spec, spec.format, packed, pixels, num);
    forall i | 0 <= i < |packed|
      ensures out[i] == packed[i]
    {
      assert num.fromFloat(num.toFloat(spec.format, packed[i])) == packed[i];
      if spec.format == Float {
        assert num.toFloat(Float, packed[i]) == packed[i];
      }
    }
  }

  /** When the defaults `auto_stride` substitutes are the packed strides of
      the region's pixels, a call that leaves every stride to `AutoStride`
      reads a packed region: only the format and gamma then decide whether
      the data are used as they are. */
  lemma AutoStridesArePacked(spec: ImageSpec, foreign: Foreign, r: Rect, format: Format)
    requires r.NonEmpty()
    requires foreign.defaultStrides == PackedStrides(SourcePixelSize(spec, foreign, format), r.Width(), r.Height())
    ensures var s := ResolveStrides(foreign, Auto, Auto, Auto);
      Contiguity.Packed(s, r.Width(), r.Height(), r.Depth(), SourcePixelSize(spec, foreign, format))
    ensures var s := ResolveStrides(foreign, Auto, Auto, Auto);
      FastPath(spec, foreign, r, format, s) <==> format == spec.format && spec.gamma == 1.0
  {
    var s := ResolveStrides(foreign, Auto, Auto, Auto);
    var p := SourcePixelSize(spec, foreign, format);
    assert s == Strides(p, p * r.Width(), p * r.Width() * r.Height());
    Contiguity.ContiguousIffPacked(s, r.Width(), r.Height(), r.Depth(), p);
  }

  /** The stage flags of a converted result choose the float buffer: with
      no float conversion it is the source data itself, with conversion but
      no gamma it is the converted values, and with gamma it is those values
      gamma-corrected outside the alpha channel. */
  lemma StagesChooseFloatBuffer<V>(spec: ImageSpec, foreign: Foreign, r: Rect, format: Format,
                                   xs: StrideArg, ys: StrideArg, zs: StrideArg,
                                   packed: seq<V>, pixels: nat, num: Numerics<V>)
    requires NoSizeOverflow(spec, foreign, r, format, ResolveStrides(foreign, xs, ys, zs))
    requires |packed| == pixels * spec.nchannels
    ensures var res := ToNativeRectangle(spec, foreign, r, format, xs, ys, zs);
      var f := FloatStage(spec, format, packed, pixels, num);
      res.Success? && res.value.Converted? ==>
      var c := res.value;
      && (!c.floatConverted ==> f == packed)
      && (c.floatConverted && !c.gammaApplied ==> f == ToFloats(format, packed, num))
      && (c.gammaApplied ==>
            f == Gamma.GammaCorrect(ToFloats(format, packed, num), pixels, spec.nchannels, spec.alphaChannel, num.correct))
  {
  }
}

=== FILE: gamma.dfy ===
/** The gamma step of `to_native_rectangle`: in a pixel-major,
    channel-minor float buffer every sample except those of the alpha
    channel is raised to `1/gamma`.  The power itself is floating point and
    is left to the `correct` parameter. */
module Gamma {
  import IndexMath

  /** Position of channel `c` of pixel `p` in a buffer of `nchannels`
      samples per pixel. */
  function ValueIndex(p: nat, c: nat, nchannels: nat): nat
  {
    p * nchannels + c
  }

  /** The channel a buffer position belongs to. */
  function ChannelOf(i: nat, nchannels: nat): nat
    requires nchannels > 0
  {
    i % nchannels
  }

  /** The sample at position `i` after the gamma step. */
  function CorrectedAt<V>(buf: seq<V>, i: nat, nchannels: nat, alpha: int, correct: V -> V): V
    requires nchannels > 0 && i < |buf|
  {
    if ChannelOf(i, nchannels) != alpha then correct(buf[i]) else buf[i]
  }

  /** Lines 159-165 of imageoutput.cpp: the buffer keeps its length, every
      sample of a non-alpha channel is corrected and every alpha sample is
      left as it was. */
  function GammaCorrect<V>(buf: seq<V>, pixels: nat, nchannels: nat, alpha: int, correct: V -> V): (r: seq<V>)
    requires |buf| == pixels * nchannels
    ensures |r| == |buf|
    ensures forall p, c | 0 <= p < pixels && 0 <= c < nchannels ::
      ValueIndex(p, c, nchannels) < |buf|
      && r[ValueIndex(p, c, nchannels)]
         == if c != alpha then correct(buf[ValueIndex(p, c, nchannels)]) else buf[ValueIndex(p, c, nchannels)]
  {
    if nchannels == 0 then buf
    else
      var r := seq(|buf|, i requires 0 <= i < |buf| => CorrectedAt(buf, i, nchannels, alpha, correct));
      forall p, c | 0 <= p < pixels && 0 <= c < nchannels
        ensures ValueIndex(p, c, nchannels) < |buf|
        ensures ChannelOf(ValueIndex(p, c, nchannels), nchannels) == c
      {
        ValueIndexInBuffer(p, c, pixels, nchannels);
      }
      r
  }

  /** Channel `c` of pixel `p` lies inside a buffer of `pixels` pixels and
      belongs to channel `c`. */
  lemma ValueIndexInBuffer(p: nat, c: nat, pixels: nat, nchannels: nat)
    requires p < pixels && c < nchannels
    ensures ValueIndex(p, c, nchannels) < pixels * nchannels
    ensures ChannelOf(ValueIndex(p, c, nchannels), nchannels) == c
  {
    assert ValueIndex(p, c, nchannels) < (p + 1) * nchannels;
    assert (p + 1) * nchannels <= pixels * nchannels;
    assert (p * nchannels + c) / nchannels == p && (p * nchannels + c) % nchannels == c by {
      IndexMath.DivModUnique(p * nchannels + c, nchannels, p, c);
    }
  }

  /** The loops at lines 162-165: pixels in order, channels in order within a
      pixel, with one running position `f`; the result is the gamma step. */
  method ApplyGamma<V>(buf: seq<V>, pixels: nat, nchannels: nat, alpha: int, correct: V -> V)
    returns (r: seq<V>)
    requires |buf| == pixels * nchannels
    ensures r == GammaCorrect(buf, pixels, nchannels, alpha, correct)
  {
    r := buf;
    if nchannels == 0 {
      return;
    }
    var f: nat := 0;
    var p: nat := 0;
    while p < pixels
      invariant p <= pixels
      invariant f == p * nchannels
      invariant |r| == |buf|
      invariant forall i | 0 <= i < |buf| ::
        r[i] == if i < f then CorrectedAt(buf, i, nchannels, alpha, correct) else buf[i]
    {
      assert f + nchannels == (p + 1) * nchannels <= pixels * nchannels;
      var c: nat := 0;
      while c < nchannels
        invariant c <= nchannels
        invariant f == p * nchannels + c
        invariant |r| == |buf|
        invariant forall i | 0 <= i < |buf| ::
          r[i] == if i < f then CorrectedAt(buf, i, nchannels, alpha, correct) else buf[i]
      {
        ValueIndexInBuffer(p, c, pixels, nchannels);
        if c != alpha {
          r := r[f := correct(r[f])];
        }
        c := c + 1;
        f := f + 1;
      }
      p := p + 1;
    }
  }
}

=== FILE: image_types.dfy ===
/** Shared vocabulary of the ImageOutput core: pixel formats, the image
    description a writer session holds, inclusive rectangles, strides and the
    foreign quantities the converter consumes but does not compute. */
module ImageTypes {

  /** Largest value of the 32-bit `int` the size arithmetic is done in. */
  const INT_MAX: int := 0x7fff_ffff

  /** Byte size of one float sample, `sizeof(float)`. */
  const FLOAT_BYTES: nat := 4

  /** A pixel data format (`ParamBaseType`).  The converter only ever
      singles out `PT_FLOAT`; every other format is told apart by its tag. */
  datatype Format = Float | Other(tag: nat)

  /** The fields of the writer's `ImageSpec` that the core reads.
      `alphaChannel` is -1 when the image has no alpha channel.
      `gamma` is kept as a real: only the tests `gamma == 1` matter here. */
  datatype ImageSpec = ImageSpec(
    width: int, height: int, depth: int,
    nchannels: nat,
    format: Format,
    tileWidth: nat, tileHeight: nat, tileDepth: nat,
    gamma: real,
    alphaChannel: int)

  /** Inclusive bounds of a sub-volume, as passed to `to_native_rectangle`. */
  datatype Rect = Rect(xmin: int, xmax: int, ymin: int, ymax: int, zmin: int, zmax: int)
  {
    /** Extents derived from inclusive bounds: `max - min + 1`.  They may be
        zero or negative for an inverted rectangle. */
    function Width(): int { xmax - xmin + 1 }
    function Height(): int { ymax - ymin + 1 }
    function Depth(): int { zmax - zmin + 1 }

    predicate NonEmpty() { Width() >= 1 && Height() >= 1 && Depth() >= 1 }

    /** Number of pixels of a non-empty rectangle. */
    function Pixels(): nat
      requires NonEmpty()
    {
      Width() * Height() * Depth()
    }
  }

  /** Byte distances between neighbouring pixels, rows and planes. */
  datatype Strides = Strides(x: int, y: int, z: int)

  /** The strides of a packed block of `pixelSize`-byte pixels in rows `w`
      pixels wide and planes `h` rows high. */
  function PackedStrides(pixelSize: int, w: int, h: int): Strides
  {
    Strides(pixelSize, pixelSize * w, pixelSize * w * h)
  }

  /** A stride as the caller passes it: either given, or the `AutoStride`
      sentinel asking for the spec's default. */
  datatype StrideArg = Auto | Given(bytes: int)

  /** Results of calls whose bodies are not part of this model:
      `ParamBaseTypeSize`, `ImageSpec::pixel_bytes()` and the default strides
      `ImageSpec::auto_stride` substitutes for `AutoStride`. */
  datatype Foreign = Foreign(typeSize: Format -> nat, pixelBytes: nat, defaultStrides: Strides)

  /** `auto_stride`: every `AutoStride` argument is replaced by the spec's
      default for that axis; a given stride is kept. */
  function ResolveStrides(foreign: Foreign, xs: StrideArg, ys: StrideArg, zs: StrideArg): (s: Strides)
    ensures xs.Given? ==> s.x == xs.bytes
    ensures ys.Given? ==> s.y == ys.bytes
    ensures zs.Given? ==> s.z == zs.bytes
    ensures xs.Auto? ==> s.x == foreign.defaultStrides.x
    ensures ys.Auto? ==> s.y == foreign.defaultStrides.y
    ensures zs.Auto? ==> s.z == foreign.defaultStrides.z
  {
    Strides(Resolve(xs, foreign.defaultStrides.x),
            Resolve(ys, foreign.defaultStrides.y),
            Resolve(zs, foreign.defaultStrides.z))
  }

  function Resolve(arg: StrideArg, default: int): int
  {
    match arg
    case Auto => default
    case Given(b) => b
  }
}

=== FILE: index_math.dfy ===
/** Integer facts about the index arithmetic shared by the converter and the
    write driver: quotient/remainder decomposition and loop trip counts. */
module IndexMath {

  /** `q` and `m` are the quotient and remainder of `n` by `d`. */
  lemma DivModUnique(n: int, d: int, q: int, m: int)
    requires d > 0 && 0 <= m < d && n == q * d + m
    ensures n / d == q && n % d == m
  {
    var q' := n / d;
    var m' := n % d;
    assert (q - q') * d == m' - m;
    if q' != q {
      MultipleAtLeast(q - q', d);
    }
  }

  /** A non-zero multiple of `d` is at least `d` away from zero. */
  lemma MultipleAtLeast(k: int, d: int)
    requires k != 0 && d > 0
    ensures k * d >= d || k * d <= -d
  {
    if k > 0 {
      assert (k - 1) * d >= 0;
    } else {
      assert (-k - 1) * d >= 0;
    }
  }

  /** Number of iterations of `for (v = 0; v < extent; v += step)`. */
  function Trips(extent: int, step: nat): nat
    requires step > 0
    decreases extent
  {
    if extent <= 0 then 0 else 1 + Trips(extent - step, step)
  }

  /** The `i`-th value of such a loop variable is still inside the extent
      exactly while `i` is below the trip count. */
  lemma {:induction false} TripsBound(extent: int, step: nat, i: nat)
    requires step > 0
    decreases extent
    ensures i * step < extent <==> i < Trips(extent, step)
  {
    if extent <= 0 {
      MulMono(0, i, step);
    } else if i > 0 {
      TripsBound(extent - step, step, i - 1);
      assert (i - 1) * step == i * step - step;
    }
  }

  /** The start of the block after block `r` of `n` items. */
  lemma NextMultiple(r: nat, n: nat)
    ensures r * n + n == (r + 1) * n
  {
  }

  /** Multiplying by a non-negative number keeps the order. */
  lemma MulMono(a: int, b: int, k: nat)
    requires a <= b
    ensures a * k <= b * k
  {
    assert b * k - a * k == (b - a) * k;
  }

  /** Along one axis, the step-aligned interval starting at `i * step`
      holds `p` exactly when `i` is `p / step`. */
  lemma AxisIndex(p: int, step: nat, i: int)
    requires step > 0 && p >= 0
    ensures i * step <= p < i * step + step <==> i == p / step
  {
    if i * step <= p < i * step + step {
      DivModUnique(p, step, i, p - i * step);
    }
    assert p == (p / step) * step + p % step;
  }

  /** A number is determined by its quotient and remainder. */
  lemma SameDivMod(a: int, b: int, d: int)
    requires d > 0 && a / d == b / d && a % d == b % d
    ensures a == b
  {
    assert a == (a / d) * d + a % d;
    assert b == (b / d) * d + b % d;
  }
}

=== FILE: write_driver.dfy ===
/** `write_image` (lines 182-236): the choice between one rectangle, tiles
    and scanlines, the byte offsets handed to the writer, and the progress
    callback.  The writer and the callback are one environment that answers
    each request knowing every earlier event; a run of the driver is the
    trace of requests it issued with their answers. */
module WriteDriver {
  import opened ImageTypes
  import IndexMath

  /** The calls the driver makes.  A progress fraction is kept as the
      quotient `num / den`. */
  datatype Request =
    | WriteRectangle(rect: Rect, strides: Strides)
    | WriteTile(x: int, y: int, z: int, offset: int, strides: Strides)
    | WriteScanline(y: int, z: int, offset: int, xstride: int)
    | Progress(num: int, den: int)
  {
    predicate IsWrite() { !Progress? }
  }

  /** One call together with the writer's success or the callback's
      request to stop. */
  datatype Event = Event(request: Request, answer: bool)

  /** What the writer advertises through `supports`. */
  datatype Writer = Writer(rectangles: bool, tiles: bool)

  /** One `write_image` call: the image, the writer, the strides after
      `auto_stride`, whether a progress callback was passed, and the
      answers of the writer and callback. */
  datatype Job = Job(spec: ImageSpec, writer: Writer, strides: Strides, hasCallback: bool,
                     env: (seq<Event>, Request) -> bool)

  /** The events issued and the value `write_image` returns. */
  datatype Run = Run(trace: seq<Event>, returned: bool)

  /** The loop variables that outlive one iteration: the trace so far, the
      loop's `ok`, and whether a callback answer made the driver return. */
  datatype LoopState = LoopState(trace: seq<Event>, ok: bool, stopped: bool)

  function Last(t: seq<Event>): Event
    requires |t| > 0
  {
    t[|t| - 1]
  }

  /** Issue a request: the environment answers it in view of the trace so far. */
  function Issue(job: Job, t: seq<Event>, q: Request): (t': seq<Event>)
    ensures |t'| == |t| + 1 && t'[..|t|] == t && Last(t').request == q
  {
    t + [Event(q, job.env(t, q))]
  }

  /** The writes of a trace, in issue order. */
  function Writes(t: seq<Event>): (w: seq<Event>)
    ensures |w| <= |t|
  {
    if t == [] then []
    else Writes(t[..|t| - 1]) + (if Last(t).request.IsWrite() then [Last(t)] else [])
  }

  /** A progress answer that makes the driver return: a loop or initial
      call (fraction below 1) answered true.  The final 1.0 call's answer
      is ignored. */
  predicate StopEvent(e: Event)
  {
    e.request.Progress? && e.request.num < e.request.den && e.answer
  }

  predicate Cancelled(t: seq<Event>)
  {
    exists i | 0 <= i < |t| :: StopEvent(t[i])
  }

  predicate AllSucceeded(w: seq<Event>)
  {
    forall i | 0 <= i < |w| :: w[i].answer
  }

  /** Line 199: tiles are used when the spec is tiled and the writer can take them. */
  predicate TilePath(job: Job)
  {
    job.spec.tileWidth != 0 && job.writer.tiles
  }

  /** What the source needs to terminate: on the tile path the y loop
      advances by the tile height, which therefore must not be 0. */
  predicate Terminates(job: Job)
  {
    TilePath(job) ==> job.spec.tileHeight >= 1
  }

  // ----- scanline path (lines 219-230) -----

  /** Scanline number `k` in z-major, y-minor order, at byte offset
      `z*zstride + y*ystride`. */
  function ScanlineAt(job: Job, k: nat): Request
    requires job.spec.height > 0
  {
    var y := k % job.spec.height;
    var z := k / job.spec.height;
    WriteScanline(y, z, z * job.strides.z + y * job.strides.y, job.strides.x)
  }

  function ScanlineCount(job: Job): nat
  {
    if job.spec.height > 0 && job.spec.depth > 0 then job.spec.height * job.spec.depth else 0
  }

  /** One trip of the y loop body for scanline `k`: nothing once `ok` is
      false (the loop guard) or the driver has returned; otherwise write the
      scanline, fold its result into `ok`, and on every 16th row report
      `y/height`, returning if the callback says so. */
  function ScanStep(job: Job, k: nat, s: LoopState): LoopState
    requires job.spec.height > 0
  {
    if s.stopped || !s.ok then s
    else
      var y := k % job.spec.height;
      var t := Issue(job, s.trace, ScanlineAt(job, k));
      var ok := s.ok && Last(t).answer;
      if job.hasCallback && y % 16 == 0 then
        var t' := Issue(job, t, Progress(y, job.spec.height));
        LoopState(t', ok, Last(t').answer)
      else
        LoopState(t, ok, false)
  }

  /** The first `n` scanline steps. */
  function Scan(job: Job, n: nat, s0: LoopState): LoopState
    requires job.spec.height > 0
  {
    if n == 0 then s0 else ScanStep(job, n - 1, Scan(job, n - 1, s0))
  }

  // ----- tile path (lines 199-218), with x advancing by the tile width -----

  function TilesAcross(job: Job): nat
    requires job.spec.tileWidth > 0
  {
    IndexMath.Trips(job.spec.width, job.spec.tileWidth)
  }

  function TilesDown(job: Job): nat
    requires job.spec.tileHeight > 0
  {
    IndexMath.Trips(job.spec.height, job.spec.tileHeight)
  }

  /** The step of the tile z loop: `tile_depth`, or 1 for the 2-D tiles
      that a `tile_depth` of 0 stands for (as line 97 reads it). */
  function DepthStep(job: Job): (d: nat)
    ensures d >= 1
    ensures job.spec.tileDepth >= 1 ==> d == job.spec.tileDepth
  {
    if job.spec.tileDepth == 0 then 1 else job.spec.tileDepth
  }

  function TilesDeep(job: Job): nat
  {
    IndexMath.Trips(job.spec.depth, DepthStep(job))
  }

  predicate TileSteps(job: Job)
  {
    job.spec.tileWidth > 0 && job.spec.tileHeight > 0
  }

  /** Tile rows, counted over all planes of tiles. */
  function TileRowCount(job: Job): nat
    requires TileSteps(job)
  {
    TilesDeep(job) * TilesDown(job)
  }

  /** The y and z loop values of tile row `r`. */
  function RowY(job: Job, r: nat): nat
    requires TileSteps(job)
  {
    if TilesDown(job) == 0 then 0 else (r % TilesDown(job)) * job.spec.tileHeight
  }

  function RowZ(job: Job, r: nat): nat
    requires TileSteps(job)
  {
    if TilesDown(job) == 0 then 0 else (r / TilesDown(job)) * DepthStep(job)
  }

  /** Tile `ix` of row `r`, at byte offset `z*zstride + y*ystride + x*xstride`. */
  function TileAt(job: Job, r: nat, ix: nat): Request
    requires TileSteps(job)
  {
    var x := ix * job.spec.tileWidth;
    var y := RowY(job, r);
    var z := RowZ(job, r);
    WriteTile(x, y, z, z * job.strides.z + y * job.strides.y + x * job.strides.x, job.strides)
  }

  /** One trip of the x loop of row `r`: tile `ix` is written while `ok` holds. */
  function TileStep(job: Job, r: nat, ix: nat, s: LoopState): LoopState
    requires TileSteps(job)
  {
    if !s.ok then s
    else
      var t := Issue(job, s.trace, TileAt(job, r, ix));
      LoopState(t, s.ok && Last(t).answer, s.stopped)
  }

  /** The first `n` trips of the x loop of row `r`. */
  function RowTiles(job: Job, r: nat, n: nat, s: LoopState): LoopState
    requires TileSteps(job)
  {
    if n == 0 then s else TileStep(job, r, n - 1, RowTiles(job, r, n - 1, s))
  }

  /** One row of tiles followed by the `y/height` progress call. */
  function RowStep(job: Job, r: nat, s: LoopState): LoopState
    requires TileSteps(job)
  {
    if s.stopped then s
    else
      var s' := RowTiles(job, r, TilesAcross(job), s);
      if job.hasCallback then
        var t := Issue(job, s'.trace, Progress(RowY(job, r), job.spec.height));
        LoopState(t, s'.ok, Last(t).answer)
      else s'
  }

  /** The first `n` rows of tiles. */
  function Tiles(job: Job, n: nat, s0: LoopState): LoopState
    requires TileSteps(job)
  {
    if n == 0 then s0 else RowStep(job, n - 1, Tiles(job, n - 1, s0))
  }

  // ----- what the loops keep invariant -----

  /** The `m`-th unit of work of the loop the driver runs: a tile in
      z, y, x order, or a scanline in z, y order. */
  function UnitAt(job: Job, m: nat): Request
    requires Terminates(job)
  {
    if TilePath(job) then
      if TilesAcross(job) > 0 then TileAt(job, m / TilesAcross(job), m % TilesAcross(job))
      else TileAt(job, m, 0)
    else if job.spec.height > 0 then ScanlineAt(job, m)
    else WriteScanline(0, 0, 0, job.strides.x)
  }

  /** How many units the loops visit when nothing fails and nobody cancels. */
  function UnitCount(job: Job): nat
    requires Terminates(job)
  {
    if TilePath(job) then TileRowCount(job) * TilesAcross(job) else ScanlineCount(job)
  }

  /** A starting trace for the loops: no writes, no stop. */
  predicate CleanStart(base: seq<Event>)
  {
    (forall i | 0 <= i < |base| :: !base[i].request.IsWrite() && !StopEvent(base[i]))
  }

  /** After `n` units the writes so far are units 0, 1, ... in order, every
      write but the last succeeded, `ok` says whether all did, and all `n`
      units were written unless a write failed or the driver returned. */
  ghost predicate WritesInv(job: Job, n: nat, s: LoopState)
    requires Terminates(job)
  {
    var w := Writes(s.trace);
    && |w| <= n
    && (forall i | 0 <= i < |w| :: w[i].request == UnitAt(job, i))
    && (forall i | 0 <= i < |w| - 1 :: w[i].answer)
    && (s.ok <==> AllSucceeded(w))
    && (s.ok && !s.stopped ==> |w| == n)
  }

  /** Only the last event can be a stop, and `stopped` says whether it is. */
  ghost predicate StopsInv(s: LoopState)
  {
    && (forall i | 0 <= i < |s.trace| - 1 :: !StopEvent(s.trace[i]))
    && (s.stopped <==> |s.trace| > 0 && StopEvent(Last(s.trace)))
  }

  /** Every event of `t` from position `from` on is a write. */
  ghost predicate WritesFrom(t: seq<Event>, from: nat)
  {
    forall i | from <= i < |t| :: t[i].request.IsWrite()
  }

  /** The loops' invariant: they extend `base`, keep `WritesInv` and
      `StopsInv`, and without a callback add only writes. */
  ghost predicate LoopInv(job: Job, n: nat, s: LoopState, base: seq<Event>)
    requires Terminates(job)
  {
    && |base| <= |s.trace| && s.trace[..|base|] == base
    && WritesInv(job, n, s)
    && StopsInv(s)
    && (!job.hasCallback ==> WritesFrom(s.trace, |base|))
  }

  lemma WritesAppend(t: seq<Event>, e: Event)
    ensures Writes(t + [e]) == Writes(t) + (if e.request.IsWrite() then [e] else [])
  {
    assert (t + [e])[..|t|] == t;
  }

  lemma WritesOfClean(base: seq<Event>)
    requires CleanStart(base)
    ensures Writes(base) == []
  {
    if base != [] {
      WritesOfClean(base[..|base| - 1]);
    }
  }

  /** The invariant holds at the start of the loops. */
  lemma LoopInvInit(job: Job, base: seq<Event>)
    requires Terminates(job) && CleanStart(base)
    ensures LoopInv(job, 0, LoopState(base, true, false), base)
  {
    WritesOfClean(base);
  }

  /** A loop that has stopped writing keeps the invariant for any later count. */
  lemma LoopInvIdle(job: Job, n: nat, n': nat, s: LoopState, base: seq<Event>)
    requires Terminates(job) && LoopInv(job, n, s, base)
    requires n <= n' && (s.stopped || !s.ok)
    ensures LoopInv(job, n', s, base)
  {
  }

  /** Issuing a write of unit `n` from a running loop state. */
  lemma LoopInvWrite(job: Job, n: nat, s: LoopState, base: seq<Event>)
    requires Terminates(job) && LoopInv(job, n, s, base)
    requires s.ok && !s.stopped
    ensures var t := Issue(job, s.trace, UnitAt(job, n));
      LoopInv(job, n + 1, LoopState(t, s.ok && Last(t).answer, false), base)
  {
    var t := Issue(job, s.trace, UnitAt(job, n));
    var s' := LoopState(t, s.ok && Last(t).answer, false);
    WritesInvWrite(job, n, s);
    StopsInvAppend(s, Last(t), false);
    assert t[..|base|] == base;
    assert !job.hasCallback ==> WritesFrom(t, |base|) by {
      if !job.hasCallback {
        assert forall i | |base| <= i < |s.trace| :: t[i] == s.trace[i];
      }
    }
  }

  lemma WritesInvWrite(job: Job, n: nat, s: LoopState)
    requires Terminates(job) && WritesInv(job, n, s) && s.ok && !s.stopped
    ensures var t := Issue(job, s.trace, UnitAt(job, n));
      WritesInv(job, n + 1, LoopState(t, s.ok && Last(t).answer, false))
  {
    var t := Issue(job, s.trace, UnitAt(job, n));
    WritesAppend(s.trace, Last(t));
  }

  /** Appending an event that is not a stop, or is one exactly when the new
      state says it stopped, keeps `StopsInv`. */
  lemma StopsInvAppend(s: LoopState, e: Event, stopped: bool)
    requires StopsInv(s) && !s.stopped && (stopped <==> StopEvent(e))
    ensures StopsInv(LoopState(s.trace + [e], true, stopped))
    ensures StopsInv(LoopState(s.trace + [e], false, stopped))
  {
    var t := s.trace + [e];
    assert forall i | 0 <= i < |s.trace| :: t[i] == s.trace[i];
  }

  /** Issuing a progress call after the last unit, `n`, of a step. */
  lemma LoopInvProgress(job: Job, n: nat, s: LoopState, base: seq<Event>, q: Request)
    requires Terminates(job) && LoopInv(job, n, s, base)
    requires !s.stopped && q.Progress? && 0 <= q.num < q.den && job.hasCallback
    ensures var t := Issue(job, s.trace, q);
      LoopInv(job, n, LoopState(t, s.ok, Last(t).answer), base)
  {
    var t := Issue(job, s.trace, q);
    WritesAppend(s.trace, Last(t));
    assert t[..|base|] == base;
  }

  lemma {:induction false} ScanInv(job: Job, n: nat, s0: LoopState)
    requires Terminates(job) && !TilePath(job) && job.spec.height > 0
    requires s0 == LoopState(s0.trace, true, false) && CleanStart(s0.trace)
    ensures LoopInv(job, n, Scan(job, n, s0), s0.trace)
  {
    if n == 0 {
      LoopInvInit(job, s0.trace);
    } else {
      ScanInv(job, n - 1, s0);
      var s := Scan(job, n - 1, s0);
      if s.stopped || !s.ok {
        LoopInvIdle(job, n - 1, n, s, s0.trace);
      } else {
        LoopInvWrite(job, n - 1, s, s0.trace);
        var t := Issue(job, s.trace, UnitAt(job, n - 1));
        var s1 := LoopState(t, s.ok && Last(t).answer, false);
        var y := (n - 1) % job.spec.height;
        if job.hasCallback && y % 16 == 0 {
          LoopInvProgress(job, n, s1, s0.trace, Progress(y, job.spec.height));
        }
      }
    }
  }

  lemma RowTilesInv(job: Job, r: nat, start: nat, n: nat, s: LoopState, base: seq<Event>)
    requires Terminates(job) && TilePath(job)
    requires start == r * TilesAcross(job)
    requires LoopInv(job, start, s, base) && !s.stopped
    requires n <= TilesAcross(job)
    ensures LoopInv(job, start + n, RowTiles(job, r, n, s), base)
    ensures !RowTiles(job, r, n, s).stopped
  {
    var ix := 0;
    var cur := s;
    while ix < n
      invariant ix <= n && cur == RowTiles(job, r, ix, s)
      invariant LoopInv(job, start + ix, cur, base) && !cur.stopped
    {
      TileStepInv(job, r, start, ix, cur, base);
      cur := TileStep(job, r, ix, cur);
      ix := ix + 1;
    }
  }

  lemma TileStepInv(job: Job, r: nat, start: nat, ix: nat, s: LoopState, base: seq<Event>)
    requires Terminates(job) && TilePath(job)
    requires start == r * TilesAcross(job) && ix < TilesAcross(job)
    requires LoopInv(job, start + ix, s, base) && !s.stopped
    ensures LoopInv(job, start + ix + 1, TileStep(job, r, ix, s), base)
    ensures !TileStep(job, r, ix, s).stopped
  {
    if !s.ok {
      LoopInvIdle(job, start + ix, start + ix + 1, s, base);
    } else {
      UnitOfRow(job, r, start, ix);
      LoopInvWrite(job, start + ix, s, base);
    }
  }

  /** Unit `r * TilesAcross + ix` is tile `ix` of row `r`. */
  lemma UnitOfRow(job: Job, r: nat, start: nat, ix: nat)
    requires Terminates(job) && TilePath(job)
    requires start == r * TilesAcross(job) && ix < TilesAcross(job)
    ensures UnitAt(job, start + ix) == TileAt(job, r, ix)
  {
    IndexMath.DivModUnique(start + ix, TilesAcross(job), r, ix);
  }

  lemma {:induction false} TilesInv(job: Job, n: nat, s0: LoopState)
    requires Terminates(job) && TilePath(job)
    requires s0 == LoopState(s0.trace, true, false) && CleanStart(s0.trace)
    requires n <= TileRowCount(job)
    ensures LoopInv(job, n * TilesAcross(job), Tiles(job, n, s0), s0.trace)
  {
    if n == 0 {
      LoopInvInit(job, s0.trace);
    } else {
      TilesInv(job, n - 1, s0);
      var start := (n - 1) * TilesAcross(job);
      RowStepInv(job, n - 1, start, Tiles(job, n - 1, s0), s0.trace);
      assert start + TilesAcross(job) == n * TilesAcross(job);
    }
  }

  lemma RowStepInv(job: Job, r: nat, start: nat, s: LoopState, base: seq<Event>)
    requires Terminates(job) && TilePath(job)
    requires start == r * TilesAcross(job) && r < TileRowCount(job)
    requires LoopInv(job, start, s, base)
    ensures LoopInv(job, start + TilesAcross(job), RowStep(job, r, s), base)
  {
    var nx := TilesAcross(job);
    if s.stopped {
      LoopInvIdle(job, start, start + nx, s, base);
    } else {
      RowTilesInv(job, r, start, nx, s, base);
      var s' := RowTiles(job, r, nx, s);
      if job.hasCallback {
        RowInsideImage(job, r);
        LoopInvProgress(job, start + nx, s', base, Progress(RowY(job, r), job.spec.height));
      }
    }
  }

  /** A row of tiles starts inside the image. */
  lemma RowInsideImage(job: Job, r: nat)
    requires TileSteps(job) && r < TileRowCount(job)
    ensures RowY(job, r) < job.spec.height
    ensures RowZ(job, r) < job.spec.depth
  {
    var ny := TilesDown(job);
    assert ny > 0;
    IndexMath.TripsBound(job.spec.height, job.spec.tileHeight, r % ny);
    IndexMath.DivModUnique(r, ny, r / ny, r % ny);
    assert r / ny < TilesDeep(job) by {
      if r / ny >= TilesDeep(job) {
        IndexMath.MulMono(TilesDeep(job), r / ny, ny);
      }
    }
    IndexMath.TripsBound(job.spec.depth, DepthStep(job), r / ny);
  }

  /** The loops keep the invariant through to the end. */
  lemma LoopsInv(job: Job, s0: LoopState)
    requires Terminates(job)
    requires s0 == LoopState(s0.trace, true, false) && CleanStart(s0.trace)
    ensures LoopInv(job, UnitCount(job), Loops(job, s0), s0.trace)
  {
    if TilePath(job) {
      TilesInv(job, TileRowCount(job), s0);
    } else if job.spec.height > 0 {
      ScanInv(job, ScanlineCount(job), s0);
    } else {
      assert UnitCount(job) == 0;
      LoopInvInit(job, s0.trace);
    }
  }

  // ----- the driver -----

  /** The whole image as one rectangle. */
  function FullImage(spec: ImageSpec): Rect
  {
    Rect(0, spec.width - 1, 0, spec.height - 1, 0, spec.depth - 1)
  }

  /** `write_image`.  A rectangle writer gets one call and nothing else; a
      callback that answers the initial 0.0 call with true ends the call
      before any write; otherwise the loops run and, unless a callback
      answer ended them, the 1.0 call follows and the outer `ok` — true —
      is returned. */
  function WriteImage(job: Job): (r: Run)
    requires Terminates(job)
    ensures job.writer.rectangles ==>
      |r.trace| == 1 && r.trace[0].request == WriteRectangle(FullImage(job.spec), job.strides)
      && r.returned == r.trace[0].answer
    ensures !job.writer.rectangles && job.hasCallback ==>
      |r.trace| >= 1 && r.trace[0].request == Progress(0, 1)
      && (r.trace[0].answer ==> r.trace == [r.trace[0]] && r.returned)
    ensures !job.writer.rectangles && !job.hasCallback ==>
      forall i | 0 <= i < |r.trace| :: r.trace[i].request.IsWrite()
  {
    if job.writer.rectangles then
      var t := Issue(job, [], WriteRectangle(FullImage(job.spec), job.strides));
      Run(t, Last(t).answer)
    else
      var t0 := if job.hasCallback then Issue(job, [], Progress(0, 1)) else [];
      if job.hasCallback && Last(t0).answer then Run(t0, true)
      else
        var s0 := LoopState(t0, true, false);
        assert CleanStart(t0);
        LoopsInv(job, s0);
        var s := Loops(job, s0);
        if s.stopped then Run(s.trace, s.ok)
        else if job.hasCallback then Run(Issue(job, s.trace, Progress(1, 1)), true)
        else Run(s.trace, true)
  }

  /** The tile or scanline loops, from the state after the initial callback. */
  function Loops(job: Job, s0: LoopState): LoopState
    requires Terminates(job)
  {
    if TilePath(job) then Tiles(job, TileRowCount(job), s0)
    else if job.spec.height > 0 then Scan(job, ScanlineCount(job), s0)
    else s0
  }

  // ----- properties of a whole run -----

  /** The loop state `WriteImage` ends its loops in, and how the returned
      trace extends it. */
  lemma RunFromLoops(job: Job) returns (s: LoopState, base: seq<Event>)
    requires Terminates(job) && !job.writer.rectangles
    ensures CleanStart(base) && LoopInv(job, UnitCount(job), s, base)
    ensures var r := WriteImage(job);
      Writes(r.trace) == Writes(s.trace)
      && (s.stopped ==> r == Run(s.trace, s.ok))
      && (!s.stopped && job.hasCallback ==> r == Run(Issue(job, s.trace, Progress(1, 1)), true))
      && (!s.stopped && !job.hasCallback ==> r == Run(s.trace, true))
  {
    var t0 := if job.hasCallback then Issue(job, [], Progress(0, 1)) else [];
    base := t0;
    if job.hasCallback && Last(t0).answer {
      s := LoopState(t0, true, true);
      assert CleanStart([]);
      LoopInvInit(job, []);
      WritesAppend([], Last(t0));
      assert [] + [Last(t0)] == t0;
      base := [];
    } else {
      var s0 := LoopState(t0, true, false);
      assert CleanStart(t0);
      LoopsInv(job, s0);
      s := Loops(job, s0);
      if !s.stopped && job.hasCallback {
        var t := Issue(job, s.trace, Progress(1, 1));
        WritesAppend(s.trace, Last(t));
      }
    }
  }

  /** Off the rectangle path the writes are units 0, 1, 2, ... of the loop
      in order — never more than the loop has — and every write but the last
      succeeded: after a failed write nothing more is written. */
  lemma WritesFollowLoopOrder(job: Job)
    requires Terminates(job) && !job.writer.rectangles
    ensures var w := Writes(WriteImage(job).trace);
      |w| <= UnitCount(job)
      && (forall i | 0 <= i < |w| :: w[i].request == UnitAt(job, i))
      && (forall i | 0 <= i < |w| - 1 :: w[i].answer)
  {
    var s, base := RunFromLoops(job);
  }

  /** When no callback answer ends the run and every write succeeds, every
      unit of the loop is written. */
  lemma EveryUnitWritten(job: Job)
    requires Terminates(job) && !job.writer.rectangles
    requires !Cancelled(WriteImage(job).trace) && AllSucceeded(Writes(WriteImage(job).trace))
    ensures |Writes(WriteImage(job).trace)| == UnitCount(job)
  {
    var s, base := RunFromLoops(job);
  }

  /** Only the last event of a run can be a callback answer that made the
      driver return. */
  lemma OnlyLastEventStops(job: Job)
    requires Terminates(job) && !job.writer.rectangles
    ensures var t := WriteImage(job).trace;
      forall i | 0 <= i < |t| - 1 :: !StopEvent(t[i])
    ensures var t := WriteImage(job).trace;
      Cancelled(t) <==> |t| > 0 && StopEvent(Last(t))
  {
    var s, base := RunFromLoops(job);
    var t := WriteImage(job).trace;
    if !s.stopped && job.hasCallback {
      forall i | 0 <= i < |t| - 1
        ensures !StopEvent(t[i])
      {
        assert t[i] == s.trace[i];
      }
    }
    if Cancelled(t) {
      var i :| 0 <= i < |t| && StopEvent(t[i]);
      assert i == |t| - 1;
    }
  }

  /** How a run ends.  When a callback answer made the driver return, that
      answer is the last event and the driver returns whether every write
      succeeded; otherwise it returns the outer `ok` — true, whatever the
      writes answered — after the final 1.0 call when there is a callback. */
  lemma RunEnding(job: Job)
    requires Terminates(job) && !job.writer.rectangles
    ensures var r := WriteImage(job);
      Cancelled(r.trace) ==>
        StopEvent(Last(r.trace)) && r.returned == AllSucceeded(Writes(r.trace))
    ensures var r := WriteImage(job);
      !Cancelled(r.trace) ==>
        r.returned && (job.hasCallback ==> Last(r.trace).request == Progress(1, 1))
  {
    OnlyLastEventStops(job);
    var s, base := RunFromLoops(job);
  }

  // ----- the scanline path in detail -----

  /** Scanline `k` of the loop is a row inside the image, at byte offset
      `z*zstride + y*ystride`. */
  lemma ScanlineBounds(job: Job, k: nat)
    requires job.spec.height > 0 && k < ScanlineCount(job)
    ensures var a := ScanlineAt(job, k);
      && 0 <= a.y < job.spec.height && 0 <= a.z < job.spec.depth
      && a.offset == a.z * job.strides.z + a.y * job.strides.y
      && a.xstride == job.strides.x
  {
    var h := job.spec.height;
    IndexMath.DivModUnique(k, h, k / h, k % h);
    if k / h >= job.spec.depth {
      IndexMath.MulMono(job.spec.depth, k / h, h);
    }
  }

  /** Scanlines come in z-major, y-minor order: a later scanline is in a
      later plane, or lower in the same plane. */
  lemma ScanlineOrder(job: Job, i: nat, j: nat)
    requires job.spec.height > 0 && i < j
    ensures var a := ScanlineAt(job, i);
      var b := ScanlineAt(job, j);
      a.z < b.z || (a.z == b.z && a.y < b.y)
  {
    var h := job.spec.height;
    IndexMath.DivModUnique(i, h, i / h, i % h);
    IndexMath.DivModUnique(j, h, j / h, j % h);
    if j / h < i / h {
      IndexMath.MulMono(j / h + 1, i / h, h);
    } else if j / h == i / h {
      assert j % h > i % h;
    }
  }

  ghost predicate ProgressAfterRow(job: Job, t: seq<Event>, from: nat)
  {
    forall i | from <= i < |t| && t[i].request.Progress? ::
      1 <= i && t[i - 1].request.WriteScanline? && t[i - 1].request.y % 16 == 0
      && t[i].request == Progress(t[i - 1].request.y, job.spec.height)
  }

  /** With a callback, every write of a row `y` with `y % 16 == 0` is
      directly followed by the `y/height` call. */
  ghost predicate RowThenProgress(job: Job, t: seq<Event>)
  {
    job.hasCallback ==>
      forall i | 0 <= i < |t| && t[i].request.WriteScanline? && t[i].request.y % 16 == 0 ::
        i + 1 < |t| && t[i + 1].request == Progress(t[i].request.y, job.spec.height)
  }

  /** The rows reported from position `from` on are below `n` and strictly
      increase. */
  ghost predicate ReportedRowsIncrease(n: nat, t: seq<Event>, from: nat)
  {
    && (forall i | from <= i < |t| && t[i].request.Progress? :: 0 <= t[i].request.num < n)
    && (forall i, j | from <= i < j < |t| && t[i].request.Progress? && t[j].request.Progress? ::
          t[i].request.num < t[j].request.num)
  }

  /** The scanline step before step `n`, with the facts the three progress
      lemmas share. */
  lemma ScanStepShape(job: Job, n: nat, s0: LoopState)
    requires !TilePath(job) && job.spec.height > 0 && 0 < n <= ScanlineCount(job)
    ensures var s := Scan(job, n - 1, s0);
      var k := n - 1;
      var y := k % job.spec.height;
      var t := Issue(job, s.trace, ScanlineAt(job, k));
      && |s0.trace| <= |s.trace|
      && (job.spec.depth == 1 ==> y == k)
      && (forall i | 0 <= i < |s.trace| :: t[i] == s.trace[i])
      && (s.stopped || !s.ok ==> Scan(job, n, s0).trace == s.trace)
      && (!(s.stopped || !s.ok) && !(job.hasCallback && y % 16 == 0) ==> Scan(job, n, s0).trace == t)
      && (!(s.stopped || !s.ok) && job.hasCallback && y % 16 == 0 ==>
            Scan(job, n, s0).trace == Issue(job, t, Progress(y, job.spec.height)))
  {
    ScanPrefix(job, n - 1, s0);
    if job.spec.depth == 1 {
      IndexMath.DivModUnique(n - 1, job.spec.height, 0, n - 1);
    }
  }

  /** Appending a write keeps every progress call after its row. */
  lemma AfterRowAppendWrite(job: Job, t: seq<Event>, from: nat, e: Event)
    requires ProgressAfterRow(job, t, from) && e.request.IsWrite()
    ensures ProgressAfterRow(job, t + [e], from)
  {
    var t' := t + [e];
    forall i | from <= i < |t'| && t'[i].request.Progress?
      ensures 1 <= i && t'[i - 1].request.WriteScanline? && t'[i - 1].request.y % 16 == 0
        && t'[i].request == Progress(t'[i - 1].request.y, job.spec.height)
    {
      assert i < |t| && t'[i] == t[i] && t'[i - 1] == t[i - 1];
    }
  }

  /** Appending the report of the row just written keeps every progress call
      after its row. */
  lemma AfterRowAppendProgress(job: Job, t: seq<Event>, from: nat, e: Event)
    requires ProgressAfterRow(job, t, from) && |t| > 0
    requires Last(t).request.WriteScanline? && Last(t).request.y % 16 == 0
    requires e.request == Progress(Last(t).request.y, job.spec.height)
    ensures ProgressAfterRow(job, t + [e], from)
  {
    var t' := t + [e];
    forall i | from <= i < |t'| && t'[i].request.Progress?
      ensures 1 <= i && t'[i - 1].request.WriteScanline? && t'[i - 1].request.y % 16 == 0
        && t'[i].request == Progress(t'[i - 1].request.y, job.spec.height)
    {
      if i < |t| {
        assert t'[i] == t[i] && t'[i - 1] == t[i - 1];
      } else {
        assert t'[i - 1] == Last(t);
      }
    }
  }

  lemma {:induction false} ScanProgressAfterRow(job: Job, n: nat, s0: LoopState)
    requires Terminates(job) && !TilePath(job) && job.spec.height > 0
    requires n <= ScanlineCount(job)
    ensures ProgressAfterRow(job, Scan(job, n, s0).trace, |s0.trace|)
  {
    if n > 0 {
      ScanProgressAfterRow(job, n - 1, s0);
      var s := Scan(job, n - 1, s0);
      if !(s.stopped || !s.ok) {
        var y := (n - 1) % job.spec.height;
        var t := Issue(job, s.trace, ScanlineAt(job, n - 1));
        AfterRowAppendWrite(job, s.trace, |s0.trace|, Last(t));
        if job.hasCallback && y % 16 == 0 {
          var t' := Issue(job, t, Progress(y, job.spec.height));
          AfterRowAppendProgress(job, t, |s0.trace|, Last(t'));
        }
      }
    }
  }

  lemma {:induction false} ScanRowThenProgress(job: Job, n: nat, s0: LoopState)
    requires Terminates(job) && !TilePath(job) && job.spec.height > 0
    requires n <= ScanlineCount(job) && CleanStart(s0.trace)
    ensures RowThenProgress(job, Scan(job, n, s0).trace)
  {
    if n > 0 {
      ScanRowThenProgress(job, n - 1, s0);
      ScanStepShape(job, n, s0);
    }
  }

  /** Appending a write adds no report. */
  lemma RowsAppendWrite(job: Job, n: nat, t: seq<Event>, from: nat, e: Event)
    requires ReportedRowsIncrease(n, t, from) && e.request.IsWrite()
    ensures ReportedRowsIncrease(n, t + [e], from)
  {
    var t' := t + [e];
    assert forall i | 0 <= i < |t| :: t'[i] == t[i];
  }

  /** Appending the report of row `n` after reports of rows below `n`. */
  lemma RowsAppendProgress(job: Job, n: nat, t: seq<Event>, from: nat, e: Event)
    requires ReportedRowsIncrease(n, t, from) && e.request == Progress(n, job.spec.height)
    ensures ReportedRowsIncrease(n + 1, t + [e], from)
  {
    var t' := t + [e];
    assert forall i | 0 <= i < |t| :: t'[i] == t[i];
  }

  /** One scanline step keeps the reported rows of a single plane increasing
      and below the number of rows visited. */
  lemma ScanReportedRowsStep(job: Job, n: nat, s0: LoopState)
    requires !TilePath(job) && job.spec.height > 0 && job.spec.depth == 1 && 0 < n <= ScanlineCount(job)
    requires ReportedRowsIncrease(n - 1, Scan(job, n - 1, s0).trace, |s0.trace|)
    ensures ReportedRowsIncrease(n, Scan(job, n, s0).trace, |s0.trace|)
  {
    var k := n - 1;
    var s := Scan(job, k, s0);
    if !(s.stopped || !s.ok) {
      IndexMath.DivModUnique(k, job.spec.height, 0, k);
      var t := Issue(job, s.trace, ScanlineAt(job, k));
      RowsAppendWrite(job, k, s.trace, |s0.trace|, Last(t));
      if job.hasCallback && k % 16 == 0 {
        var t' := Issue(job, t, Progress(k, job.spec.height));
        RowsAppendProgress(job, k, t, |s0.trace|, Last(t'));
      }
    }
  }

  /** For a single plane, the rows the scanline loop reports increase. */
  lemma {:induction false} ScanReportedRowsIncrease(job: Job, n: nat, s0: LoopState)
    requires !TilePath(job) && job.spec.height > 0 && job.spec.depth == 1
    requires n <= ScanlineCount(job)
    ensures ReportedRowsIncrease(n, Scan(job, n, s0).trace, |s0.trace|)
  {
    if n > 0 {
      ScanReportedRowsIncrease(job, n - 1, s0);
      ScanReportedRowsStep(job, n, s0);
    }
  }

  /** The scanline loop only appends to its starting trace. */
  lemma {:induction false} ScanPrefix(job: Job, n: nat, s0: LoopState)
    requires job.spec.height > 0
    ensures |s0.trace| <= |Scan(job, n, s0).trace|
  {
    if n > 0 {
      ScanPrefix(job, n - 1, s0);
    }
  }

  /** The scanline loops of a run whose initial 0.0 call was answered
      false, and how the returned trace extends their trace. */
  lemma ScanlineRun(job: Job) returns (s0: LoopState, s: LoopState)
    requires !job.writer.rectangles && !TilePath(job) && job.spec.height > 0 && job.hasCallback
    requires !job.env([], Progress(0, 1))
    ensures s0 == LoopState([Event(Progress(0, 1), false)], true, false) && CleanStart(s0.trace)
    ensures s == Scan(job, ScanlineCount(job), s0) && 1 <= |s.trace| && s.trace[0] == s0.trace[0]
    ensures var t := WriteImage(job).trace;
      && |s.trace| <= |t| <= |s.trace| + 1
      && (forall i | 0 <= i < |s.trace| :: t[i] == s.trace[i])
      && (|t| > |s.trace| ==> t[|s.trace|].request == Progress(1, 1))
  {
    s0 := LoopState([Event(Progress(0, 1), false)], true, false);
    assert CleanStart(s0.trace);
    s := Scan(job, ScanlineCount(job), s0);
    ScanInv(job, ScanlineCount(job), s0);
    assert s.trace[..1] == s0.trace;
    assert Loops(job, s0) == s;
    if !s.stopped {
      var t := Issue(job, s.trace, Progress(1, 1));
      assert forall i | 0 <= i < |s.trace| :: t[i] == s.trace[i];
    }
  }

  /** With a callback, every report of a row before the end directly
      follows the write of that row, a row with `y % 16 == 0`. */
  lemma ScanlineReportFollowsRow(job: Job)
    requires Terminates(job) && !job.writer.rectangles && !TilePath(job)
    requires job.spec.height > 0 && job.hasCallback
    ensures var t := WriteImage(job).trace;
      forall i | 1 <= i < |t| && t[i].request.Progress? && t[i].request.num < t[i].request.den ::
        t[i - 1].request.WriteScanline? && t[i - 1].request.y % 16 == 0
        && t[i].request == Progress(t[i - 1].request.y, job.spec.height)
  {
    if !job.env([], Progress(0, 1)) {
      var s0, s := ScanlineRun(job);
      ScanProgressAfterRow(job, ScanlineCount(job), s0);
      var t := WriteImage(job).trace;
      forall i | 1 <= i < |t| && t[i].request.Progress? && t[i].request.num < t[i].request.den
        ensures t[i - 1].request.WriteScanline? && t[i - 1].request.y % 16 == 0
          && t[i].request == Progress(t[i - 1].request.y, job.spec.height)
      {
        assert i < |s.trace|;
        assert t[i] == s.trace[i] && t[i - 1] == s.trace[i - 1];
      }
    }
  }

  /** With a callback, the write of every row with `y % 16 == 0` is
      directly followed by the `y/height` report. */
  lemma ScanlineRowIsReported(job: Job)
    requires Terminates(job) && !job.writer.rectangles && !TilePath(job)
    requires job.spec.height > 0 && job.hasCallback
    ensures var t := WriteImage(job).trace;
      forall i | 0 <= i < |t| && t[i].request.WriteScanline? && t[i].request.y % 16 == 0 ::
        i + 1 < |t| && t[i + 1].request == Progress(t[i].request.y, job.spec.height)
  {
    if !job.env([], Progress(0, 1)) {
      var s0, s := ScanlineRun(job);
      ScanRowThenProgress(job, ScanlineCount(job), s0);
      var t := WriteImage(job).trace;
      forall i | 0 <= i < |t| && t[i].request.WriteScanline? && t[i].request.y % 16 == 0
        ensures i + 1 < |t| && t[i + 1].request == Progress(t[i].request.y, job.spec.height)
      {
        assert i < |s.trace|;
        assert t[i] == s.trace[i] && t[i + 1] == s.trace[i + 1];
      }
    }
  }

  /** For a single-plane image on the scanline path, the fractions reported
      never decrease: 0.0 first, then rows 0, 16, 32, ... over `height`,
      then 1.0 unless a callback answer ended the run. */
  lemma ScanlineProgressMonotone(job: Job)
    requires Terminates(job) && !job.writer.rectangles && !TilePath(job)
    requires job.spec.height > 0 && job.spec.depth == 1
    ensures var t := WriteImage(job).trace;
      forall i, j | 0 <= i < j < |t| && t[i].request.Progress? && t[j].request.Progress? ::
        t[i].request.den > 0 && t[j].request.den > 0
        && t[i].request.num * t[j].request.den <= t[j].request.num * t[i].request.den
  {
    if job.hasCallback && !job.env([], Progress(0, 1)) {
      var h := job.spec.height;
      var s0, s := ScanlineRun(job);
      ScanProgressAfterRow(job, ScanlineCount(job), s0);
      ScanReportedRowsIncrease(job, ScanlineCount(job), s0);
      var t := WriteImage(job).trace;
      forall i, j | 0 <= i < j < |t| && t[i].request.Progress? && t[j].request.Progress?
        ensures t[i].request.den > 0 && t[j].request.den > 0
        ensures t[i].request.num * t[j].request.den <= t[j].request.num * t[i].request.den
      {
        ScanlineReportAt(job, s, t, i);
        ScanlineReportAt(job, s, t, j);
        if i == 0 {
        } else if j < |s.trace| {
          assert t[i] == s.trace[i] && t[j] == s.trace[j];
          IndexMath.MulMono(t[i].request.num, t[j].request.num, h);
        }
      }
    }
  }

  /** A report in such a run is the 0.0 call, a row report `y/height` with
      `0 <= y < height`, or the final 1.0 call. */
  lemma ScanlineReportAt(job: Job, s: LoopState, t: seq<Event>, i: nat)
    requires !TilePath(job) && job.spec.height > 0 && job.spec.depth == 1
    requires 1 <= |s.trace| && s.trace[0] == Event(Progress(0, 1), false)
    requires ProgressAfterRow(job, s.trace, 1) && ReportedRowsIncrease(ScanlineCount(job), s.trace, 1)
    requires |s.trace| <= |t| <= |s.trace| + 1 && (forall k | 0 <= k < |s.trace| :: t[k] == s.trace[k])
    requires |t| > |s.trace| ==> t[|s.trace|].request == Progress(1, 1)
    requires i < |t| && t[i].request.Progress?
    ensures i == 0 ==> t[i].request == Progress(0, 1)
    ensures 0 < i < |s.trace| ==> t[i].request.den == job.spec.height
    ensures 0 < i < |s.trace| ==> 0 <= t[i].request.num < job.spec.height
    ensures i >= |s.trace| ==> t[i].request == Progress(1, 1)
  {
    if i < |s.trace| {
      assert t[i] == s.trace[i];
      if i > 0 {
        assert s.trace[i].request == Progress(s.trace[i - 1].request.y, job.spec.height);
        assert ScanlineCount(job) == job.spec.height;
      }
    }
  }


  // ----- the tile path in detail -----

  /** Tile `m` of the loop sits at tile column `m % across`, tile row
      `(m / across) % down` and tile plane `(m / across) / down`. */
  lemma TileUnit(job: Job, m: nat)
    requires Terminates(job) && TilePath(job) && m < UnitCount(job)
    ensures TilesAcross(job) > 0 && TilesDown(job) > 0
    ensures var ix := m % TilesAcross(job);
      var r := m / TilesAcross(job);
      var iy := r % TilesDown(job);
      var iz := r / TilesDown(job);
      && ix < TilesAcross(job) && iy < TilesDown(job) && iz < TilesDeep(job)
      && UnitAt(job, m) == WriteTile(ix * job.spec.tileWidth, iy * job.spec.tileHeight, iz * DepthStep(job),
                                     iz * DepthStep(job) * job.strides.z + iy * job.spec.tileHeight * job.strides.y
                                     + ix * job.spec.tileWidth * job.strides.x,
                                     job.strides)
  {
    var nx := TilesAcross(job);
    var ny := TilesDown(job);
    assert nx > 0 && TileRowCount(job) > 0;
    var r := m / nx;
    IndexMath.DivModUnique(m, nx, r, m % nx);
    assert r < TileRowCount(job) by {
      if r >= TileRowCount(job) {
        IndexMath.MulMono(TileRowCount(job), r, nx);
      }
    }
    assert ny > 0;
    IndexMath.DivModUnique(r, ny, r / ny, r % ny);
    assert r / ny < TilesDeep(job) by {
      if r / ny >= TilesDeep(job) {
        IndexMath.MulMono(TilesDeep(job), r / ny, ny);
      }
    }
  }

  /** Tile `m` of the loop starts inside the image. */
  lemma TileInsideImage(job: Job, m: nat)
    requires Terminates(job) && TilePath(job) && m < UnitCount(job)
    ensures var q := UnitAt(job, m);
      q.WriteTile? && 0 <= q.x < job.spec.width && 0 <= q.y < job.spec.height && 0 <= q.z < job.spec.depth
  {
    TileUnit(job, m);
    var nx := TilesAcross(job);
    var r := m / nx;
    IndexMath.TripsBound(job.spec.width, job.spec.tileWidth, m % nx);
    IndexMath.TripsBound(job.spec.height, job.spec.tileHeight, r % TilesDown(job));
    IndexMath.TripsBound(job.spec.depth, DepthStep(job), r / TilesDown(job));
  }

  /** Tile request `q` covers pixel (px, py, pz). */
  predicate Covers(job: Job, q: Request, px: int, py: int, pz: int)
  {
    q.WriteTile?
    && q.x <= px < q.x + job.spec.tileWidth
    && q.y <= py < q.y + job.spec.tileHeight
    && q.z <= pz < q.z + DepthStep(job)
  }

  /** Every pixel of the image lies in some tile of the loop, edge tiles
      included. */
  lemma PixelHasTile(job: Job, px: int, py: int, pz: int) returns (m: nat)
    requires Terminates(job) && TilePath(job)
    requires 0 <= px < job.spec.width && 0 <= py < job.spec.height && 0 <= pz < job.spec.depth
    ensures m < UnitCount(job) && Covers(job, UnitAt(job, m), px, py, pz)
  {
    var ix := AxisTile(px, job.spec.tileWidth, job.spec.width);
    var iy := AxisTile(py, job.spec.tileHeight, job.spec.height);
    var iz := AxisTile(pz, DepthStep(job), job.spec.depth);
    var nx, ny := TilesAcross(job), TilesDown(job);
    var r := iz * ny + iy;
    FlatIndex(iz, iy, TilesDeep(job), ny);
    m := r * nx + ix;
    FlatIndex(r, ix, TileRowCount(job), nx);
    IndexMath.DivModUnique(m, nx, r, ix);
    IndexMath.DivModUnique(r, ny, iz, iy);
    TileUnit(job, m);
  }

  /** The tile index along one axis of the loop whose tile holds `p`. */
  lemma AxisTile(p: int, step: nat, extent: int) returns (i: nat)
    requires step > 0 && 0 <= p < extent
    ensures i * step <= p < i * step + step && i < IndexMath.Trips(extent, step)
  {
    i := p / step;
    IndexMath.AxisIndex(p, step, i);
    IndexMath.TripsBound(extent, step, i);
  }

  /** Row-major flattening of a pair of bounded indices stays in bounds. */
  lemma FlatIndex(a: nat, b: nat, na: nat, nb: nat)
    requires a < na && b < nb
    ensures a * nb + b < na * nb
  {
    IndexMath.MulMono(a + 1, na, nb);
  }

  /** No pixel lies in two different tiles of the loop. */
  lemma TileOfPixelUnique(job: Job, m1: nat, m2: nat, px: int, py: int, pz: int)
    requires Terminates(job) && TilePath(job)
    requires m1 < UnitCount(job) && m2 < UnitCount(job)
    requires 0 <= px && 0 <= py && 0 <= pz
    requires Covers(job, UnitAt(job, m1), px, py, pz) && Covers(job, UnitAt(job, m2), px, py, pz)
    ensures m1 == m2
  {
    var tw, th, td := job.spec.tileWidth, job.spec.tileHeight, DepthStep(job);
    TileUnit(job, m1);
    TileUnit(job, m2);
    var nx, ny := TilesAcross(job), TilesDown(job);
    var r1, r2 := m1 / nx, m2 / nx;
    IndexMath.AxisIndex(px, tw, m1 % nx);
    IndexMath.AxisIndex(px, tw, m2 % nx);
    IndexMath.AxisIndex(py, th, r1 % ny);
    IndexMath.AxisIndex(py, th, r2 % ny);
    IndexMath.AxisIndex(pz, td, r1 / ny);
    IndexMath.AxisIndex(pz, td, r2 / ny);
    IndexMath.SameDivMod(r1, r2, ny);
    IndexMath.SameDivMod(m1, m2, nx);
  }

  /** Some write in `w` covers pixel (px, py, pz). */
  ghost predicate CoveredBy(job: Job, w: seq<Event>, px: int, py: int, pz: int)
  {
    exists i | 0 <= i < |w| :: Covers(job, w[i].request, px, py, pz)
  }

  /** Off the rectangle path, when no callback answer ends the run and
      every tile write succeeds, the tiles written cover every pixel of the
      image exactly once, partial tiles at the right, bottom and back edges
      included. */
  lemma TilesCoverImage(job: Job)
    requires Terminates(job) && !job.writer.rectangles && TilePath(job)
    requires !Cancelled(WriteImage(job).trace) && AllSucceeded(Writes(WriteImage(job).trace))
    ensures var w := Writes(WriteImage(job).trace);
      forall px, py, pz | 0 <= px < job.spec.width && 0 <= py < job.spec.height && 0 <= pz < job.spec.depth ::
        CoveredBy(job, w, px, py, pz)
    ensures var w := Writes(WriteImage(job).trace);
      forall i, j, px, py, pz | 0 <= i < |w| && 0 <= j < |w| && 0 <= px && 0 <= py && 0 <= pz
        && Covers(job, w[i].request, px, py, pz) && Covers(job, w[j].request, px, py, pz) :: i == j
  {
    var w := Writes(WriteImage(job).trace);
    WritesFollowLoopOrder(job);
    EveryUnitWritten(job);
    forall px, py, pz | 0 <= px < job.spec.width && 0 <= py < job.spec.height && 0 <= pz < job.spec.depth
      ensures CoveredBy(job, w, px, py, pz)
    {
      var m := PixelHasTile(job, px, py, pz);
      assert w[m].request == UnitAt(job, m);
    }
    forall i, j, px, py, pz | 0 <= i < |w| && 0 <= j < |w| && 0 <= px && 0 <= py && 0 <= pz
      && Covers(job, w[i].request, px, py, pz) && Covers(job, w[j].request, px, py, pz)
      ensures i == j
    {
      TileOfPixelUnique(job, i, j, px, py, pz);
    }
  }

  // ----- progress on the tile path -----

  /** A report from inside the loops or the initial call: a progress call
      with a fraction below 1. */
  predicate RowReport(e: Event)
  {
    e.request.Progress? && e.request.num < e.request.den
  }

  /** The requests of the reports of a trace, in issue order. */
  function Reports(t: seq<Event>): (p: seq<Request>)
    ensures |p| <= |t|
  {
    if t == [] then []
    else Reports(t[..|t| - 1]) + (if RowReport(Last(t)) then [Last(t).request] else [])
  }

  /** The reports are the 0.0 call and then the `y/height` reports of tile
      rows 0, 1, 2, ... in loop order, one per row. */
  ghost predicate RowsReportedInOrder(job: Job, t: seq<Event>)
    requires TileSteps(job)
  {
    var p := Reports(t);
    && 1 <= |p| && p[0] == Progress(0, 1)
    && (forall j | 1 <= j < |p| :: p[j] == Progress(RowY(job, j - 1), job.spec.height))
  }

  /** Report `e`, issued after the events `before`, closes a row of tiles:
      with `j` reports before it, it is the report of row `j - 1`, and at
      most `j` rows of tiles were written before it, all of them when every
      write so far succeeded. */
  ghost predicate ReportCloses(job: Job, before: seq<Event>, e: Event)
    requires TileSteps(job)
  {
    var j := |Reports(before)|;
    && 1 <= j
    && e.request == Progress(RowY(job, j - 1), job.spec.height)
    && |Writes(before)| <= j * TilesAcross(job)
    && (AllSucceeded(Writes(before)) ==> |Writes(before)| == j * TilesAcross(job))
  }

  /** Every report of `t` after its first event closes a row of tiles. */
  ghost predicate ReportsCloseRows(job: Job, t: seq<Event>)
    requires TileSteps(job)
    decreases |t|
  {
    |t| <= 1
    || (ReportsCloseRows(job, t[..|t| - 1])
        && (RowReport(Last(t)) ==> ReportCloses(job, t[..|t| - 1], Last(t))))
  }

  /** `ReportsCloseRows` at one position of the trace. */
  lemma {:induction false} ReportClosesAt(job: Job, t: seq<Event>, i: nat)
    requires TileSteps(job) && ReportsCloseRows(job, t)
    requires 1 <= i < |t| && RowReport(t[i])
    ensures ReportCloses(job, t[..i], t[i])
    decreases |t|
  {
    if i < |t| - 1 {
      var u := t[..|t| - 1];
      ReportClosesAt(job, u, i);
      assert u[..i] == t[..i] && u[i] == t[i];
    }
  }

  /** What the tile loops keep about reports after `n` rows: the two
      predicates above, and one report per row visited unless a callback
      answer ended the loops. */
  ghost predicate TileReportsInv(job: Job, n: nat, s: LoopState)
    requires TileSteps(job)
  {
    && RowsReportedInOrder(job, s.trace)
    && ReportsCloseRows(job, s.trace)
    && |Reports(s.trace)| <= n + 1
    && (!s.stopped ==> |Reports(s.trace)| == n + 1)
  }

  /** Appending an event that is no report changes no report. */
  lemma AppendQuiet(job: Job, t: seq<Event>, e: Event)
    requires TileSteps(job) && !RowReport(e)
    ensures Reports(t + [e]) == Reports(t)
    ensures ReportsCloseRows(job, t) ==> ReportsCloseRows(job, t + [e])
  {
    assert (t + [e])[..|t|] == t;
  }

  /** Appending the report of row `r` once `r + 1` reports and at most
      `r + 1` rows of tiles are in the trace. */
  lemma AppendRowReport(job: Job, r: nat, t: seq<Event>, e: Event)
    requires TileSteps(job) && RowsReportedInOrder(job, t) && ReportsCloseRows(job, t)
    requires |Reports(t)| == r + 1 && RowY(job, r) < job.spec.height
    requires e.request == Progress(RowY(job, r), job.spec.height)
    requires |Writes(t)| <= (r + 1) * TilesAcross(job)
    requires AllSucceeded(Writes(t)) ==> |Writes(t)| == (r + 1) * TilesAcross(job)
    ensures RowsReportedInOrder(job, t + [e]) && ReportsCloseRows(job, t + [e])
    ensures |Reports(t + [e])| == r + 2
  {
    var t' := t + [e];
    assert t'[..|t|] == t;
    assert Reports(t') == Reports(t) + [e.request];
  }

  /** The x loop of a row adds writes only, so no report. */
  lemma {:induction false} RowTilesQuiet(job: Job, r: nat, n: nat, s: LoopState)
    requires TileSteps(job)
    ensures Reports(RowTiles(job, r, n, s).trace) == Reports(s.trace)
    ensures ReportsCloseRows(job, s.trace) ==> ReportsCloseRows(job, RowTiles(job, r, n, s).trace)
  {
    if n > 0 {
      RowTilesQuiet(job, r, n - 1, s);
      TileStepQuiet(job, r, n - 1, RowTiles(job, r, n - 1, s));
    }
  }

  /** One trip of the x loop adds at most a write. */
  lemma TileStepQuiet(job: Job, r: nat, ix: nat, s: LoopState)
    requires TileSteps(job)
    ensures Reports(TileStep(job, r, ix, s).trace) == Reports(s.trace)
    ensures ReportsCloseRows(job, s.trace) ==> ReportsCloseRows(job, TileStep(job, r, ix, s).trace)
  {
    if s.ok {
      var t := Issue(job, s.trace, TileAt(job, r, ix));
      AppendQuiet(job, s.trace, Last(t));
    }
  }

  /** One row of tiles and its report keep `TileReportsInv`. */
  lemma TileReportsStep(job: Job, r: nat, s: LoopState, base: seq<Event>)
    requires Terminates(job) && TilePath(job) && job.hasCallback && r < TileRowCount(job)
    requires LoopInv(job, r * TilesAcross(job), s, base) && TileReportsInv(job, r, s)
    ensures TileReportsInv(job, r + 1, RowStep(job, r, s))
  {
    if !s.stopped {
      var nx := TilesAcross(job);
      RowTilesInv(job, r, r * nx, nx, s, base);
      RowTilesQuiet(job, r, nx, s);
      var s' := RowTiles(job, r, nx, s);
      RowReportAfterTiles(job, r, s', base);
      var t := Issue(job, s'.trace, Progress(RowY(job, r), job.spec.height));
      assert RowStep(job, r, s) == LoopState(t, s'.ok, Last(t).answer);
    }
  }

  /** The report that ends row `r`, issued once the row's tiles are written. */
  lemma RowReportAfterTiles(job: Job, r: nat, s': LoopState, base: seq<Event>)
    requires Terminates(job) && TilePath(job) && r < TileRowCount(job)
    requires LoopInv(job, r * TilesAcross(job) + TilesAcross(job), s', base) && !s'.stopped
    requires RowsReportedInOrder(job, s'.trace) && ReportsCloseRows(job, s'.trace)
    requires |Reports(s'.trace)| == r + 1
    ensures var t := Issue(job, s'.trace, Progress(RowY(job, r), job.spec.height));
      RowsReportedInOrder(job, t) && ReportsCloseRows(job, t) && |Reports(t)| == r + 2
  {
    RowInsideImage(job, r);
    IndexMath.NextMultiple(r, TilesAcross(job));
    var t := Issue(job, s'.trace, Progress(RowY(job, r), job.spec.height));
    assert t == s'.trace + [Last(t)];
    AppendRowReport(job, r, s'.trace, Last(t));
  }


  /** The tile loops keep `TileReportsInv`, starting after a 0.0 call
      answered false. */
  lemma {:induction false} TilesReportsInv(job: Job, n: nat, s0: LoopState)
    requires Terminates(job) && TilePath(job) && job.hasCallback && n <= TileRowCount(job)
    requires s0 == LoopState([Event(Progress(0, 1), false)], true, false)
    ensures TileReportsInv(job, n, Tiles(job, n, s0))
  {
    if n == 0 {
      assert s0.trace[..0] == [];
      assert Reports(s0.trace) == [Progress(0, 1)];
    } else {
      TilesReportsInv(job, n - 1, s0);
      assert CleanStart(s0.trace);
      TilesInv(job, n - 1, s0);
      var prev := Tiles(job, n - 1, s0);
      TileReportsStep(job, n - 1, prev, s0.trace);
      assert Tiles(job, n, s0) == RowStep(job, n - 1, prev);
    }
  }

  /** The tile loops of a run whose initial 0.0 call was answered false,
      and how the returned trace extends their trace. */
  lemma TileRun(job: Job) returns (s0: LoopState, s: LoopState)
    requires Terminates(job) && !job.writer.rectangles && TilePath(job) && job.hasCallback
    requires !job.env([], Progress(0, 1))
    ensures s0 == LoopState([Event(Progress(0, 1), false)], true, false)
    ensures s == Tiles(job, TileRowCount(job), s0) && StopsInv(s)
    ensures WriteImage(job).trace == if s.stopped then s.trace else Issue(job, s.trace, Progress(1, 1))
  {
    s0 := LoopState([Event(Progress(0, 1), false)], true, false);
    assert CleanStart(s0.trace);
    s := Tiles(job, TileRowCount(job), s0);
    TilesInv(job, TileRowCount(job), s0);
    assert Loops(job, s0) == s;
  }

  /** The reports of a tile run with a callback: the 0.0 call, then one
      `y/height` report per row of tiles in loop order, every row reported
      unless a callback answer ended the run. */
  lemma TileRowsReportedInOrder(job: Job)
    requires Terminates(job) && !job.writer.rectangles && TilePath(job) && job.hasCallback
    ensures var p := Reports(WriteImage(job).trace);
      && 1 <= |p| <= TileRowCount(job) + 1 && p[0] == Progress(0, 1)
      && (forall j | 1 <= j < |p| :: p[j] == Progress(RowY(job, j - 1), job.spec.height))
    ensures !Cancelled(WriteImage(job).trace) ==> |Reports(WriteImage(job).trace)| == TileRowCount(job) + 1
  {
    var t := WriteImage(job).trace;
    if job.env([], Progress(0, 1)) {
      assert t == [Event(Progress(0, 1), true)] && t[..0] == [];
      assert StopEvent(t[0]);
    } else {
      var s0, s := TileRun(job);
      TilesReportsInv(job, TileRowCount(job), s0);
      if s.stopped {
        assert StopEvent(t[|t| - 1]);
      } else {
        AppendQuiet(job, s.trace, Last(t));
      }
    }
  }

  /** Each report of a tile run after the 0.0 call closes a row of tiles:
      the report preceded by `j` reports is `y/height` for row `j - 1`, and
      it follows at most `j` rows of tile writes — exactly `j` rows when
      every write so far succeeded. */
  lemma TileReportFollowsRow(job: Job)
    requires Terminates(job) && !job.writer.rectangles && TilePath(job) && job.hasCallback
    ensures var t := WriteImage(job).trace;
      forall i | 1 <= i < |t| && RowReport(t[i]) ::
        var j := |Reports(t[..i])|;
        && 1 <= j
        && t[i].request == Progress(RowY(job, j - 1), job.spec.height)
        && |Writes(t[..i])| <= j * TilesAcross(job)
        && (AllSucceeded(Writes(t[..i])) ==> |Writes(t[..i])| == j * TilesAcross(job))
  {
    var t := WriteImage(job).trace;
    TileTraceClosesRows(job);
    forall i | 1 <= i < |t| && RowReport(t[i])
      ensures ReportCloses(job, t[..i], t[i])
    {
      ReportClosesAt(job, t, i);
    }
  }

  lemma TileTraceClosesRows(job: Job)
    requires Terminates(job) && !job.writer.rectangles && TilePath(job) && job.hasCallback
    ensures ReportsCloseRows(job, WriteImage(job).trace)
  {
    var t := WriteImage(job).trace;
    if job.env([], Progress(0, 1)) {
      assert t == [Event(Progress(0, 1), true)];
    } else {
      var s0, s := TileRun(job);
      TilesReportsInv(job, TileRowCount(job), s0);
      if !s.stopped {
        AppendQuiet(job, s.trace, Last(t));
      }
    }
  }

  // ----- the tile x loop as written -----

  /** How a bounded run of a loop ended: still running when the trips ran
      out, or exited with the loop state and the value of the variable the
      loop's step advances. */
  datatype Bounded = StillRunning | Exited(state: LoopState, position: int)

  /** The x loop of line 211 as written: its step adds the tile width to
      `y`, so `x` stays where it started and only a failed write ends the
      loop.  At most `fuel` trips are run. */
  function TileRowAsWritten(job: Job, x: int, y: int, z: int, s: LoopState, fuel: nat): (b: Bounded)
    ensures b.Exited? && x < job.spec.width ==> !b.state.ok
    decreases fuel
  {
    if !(x < job.spec.width && s.ok) then Exited(s, y)
    else if fuel == 0 then StillRunning
    else
      var q := WriteTile(x, y, z, z * job.strides.z + y * job.strides.y + x * job.strides.x, job.strides);
      var t := Issue(job, s.trace, q);
      TileRowAsWritten(job, x, y + job.spec.tileWidth, z, LoopState(t, s.ok && Last(t).answer, s.stopped), fuel - 1)
  }

  /** Against a writer whose tile writes all succeed, the loop as written
      never ends, however many trips are allowed, on any image at least one
      pixel wide. */
  lemma {:induction false} TileRowAsWrittenNeverEnds(job: Job, y: int, z: int, s: LoopState, fuel: nat)
    requires job.spec.width > 0 && s.ok
    requires forall t: seq<Event>, q: Request | q.WriteTile? :: job.env(t, q)
    ensures TileRowAsWritten(job, 0, y, z, s, fuel) == StillRunning
    decreases fuel
  {
    if fuel > 0 {
      var q := WriteTile(0, y, z, z * job.strides.z + y * job.strides.y + 0 * job.strides.x, job.strides);
      var t := Issue(job, s.trace, q);
      assert Last(t).answer;
      TileRowAsWrittenNeverEnds(job, y + job.spec.tileWidth, z, LoopState(t, true, s.stopped), fuel - 1);
    }
  }

  // ----- the tile z loop as written -----

  /** The x loop of the tile row at (y, z), with `x` advancing: the line 211
      defect is taken as corrected here, so that the z loop below shows the
      line 209 defect on its own. */
  function RowAt(job: Job, x: int, y: int, z: int, s: LoopState): (s': LoopState)
    requires job.spec.tileWidth > 0
    ensures s'.stopped == s.stopped
    decreases job.spec.width - x
  {
    if !(x < job.spec.width && s.ok) then s
    else
      var q := WriteTile(x, y, z, z * job.strides.z + y * job.strides.y + x * job.strides.x, job.strides);
      var t := Issue(job, s.trace, q);
      RowAt(job, x + job.spec.tileWidth, y, z, LoopState(t, s.ok && Last(t).answer, s.stopped))
  }

  /** The y loop of lines 210-217 in plane `z`, from `y` on: a row of tiles,
      then the `y/height` call, returning when the callback says so. */
  function PlaneAt(job: Job, y: int, z: int, s: LoopState): LoopState
    requires job.spec.tileWidth > 0 && job.spec.tileHeight > 0
    decreases job.spec.height - y
  {
    if !(y < job.spec.height) then s
    else
      var s' := RowAt(job, 0, y, z, s);
      if job.hasCallback then
        var t := Issue(job, s'.trace, Progress(y, job.spec.height));
        if Last(t).answer then LoopState(t, s'.ok, true)
        else PlaneAt(job, y + job.spec.tileHeight, z, LoopState(t, s'.ok, false))
      else PlaneAt(job, y + job.spec.tileHeight, z, s')
  }

  /** The z loop of line 209 as written: its step is `tile_depth` itself,
      so a `tile_depth` of 0 leaves `z` where it is and only a callback
      answer ends the loop.  At most `fuel` trips are run. */
  function ZLoopAsWritten(job: Job, z: int, s: LoopState, fuel: nat): (b: Bounded)
    requires job.spec.tileWidth > 0 && job.spec.tileHeight > 0
    ensures b.Exited? ==> b.position >= job.spec.depth || b.state.stopped
    decreases fuel
  {
    if !(z < job.spec.depth) then Exited(s, z)
    else if fuel == 0 then StillRunning
    else
      var s' := PlaneAt(job, 0, z, s);
      if s'.stopped then Exited(s', z)
      else ZLoopAsWritten(job, z + job.spec.tileDepth, s', fuel - 1)
  }

  /** A plane's y loop returns only on a callback answer of true. */
  lemma {:induction false} PlaneKeepsRunning(job: Job, y: int, z: int, s: LoopState)
    requires job.spec.tileWidth > 0 && job.spec.tileHeight > 0 && !s.stopped
    requires forall t: seq<Event>, q: Request | q.Progress? :: !job.env(t, q)
    ensures !PlaneAt(job, y, z, s).stopped
    decreases job.spec.height - y
  {
    if y < job.spec.height {
      var s' := RowAt(job, 0, y, z, s);
      if job.hasCallback {
        var t := Issue(job, s'.trace, Progress(y, job.spec.height));
        assert !Last(t).answer;
        PlaneKeepsRunning(job, y + job.spec.tileHeight, z, LoopState(t, s'.ok, false));
      } else {
        PlaneKeepsRunning(job, y + job.spec.tileHeight, z, s');
      }
    }
  }

  /** With 2-D tiles (`tile_depth == 0`) on an image at least one plane
      deep, the z loop as written rewrites plane 0 for ever unless the
      callback asks to stop: it is still running after any number of trips. */
  lemma {:induction false} FlatTilesZLoopNeverEnds(job: Job, s: LoopState, fuel: nat)
    requires job.spec.tileWidth > 0 && job.spec.tileHeight > 0
    requires job.spec.tileDepth == 0 && job.spec.depth >= 1 && !s.stopped
    requires forall t: seq<Event>, q: Request | q.Progress? :: !job.env(t, q)
    ensures ZLoopAsWritten(job, 0, s, fuel) == StillRunning
    decreases fuel
  {
    if fuel > 0 {
      PlaneKeepsRunning(job, 0, 0, s);
      FlatTilesZLoopNeverEnds(job, PlaneAt(job, 0, 0, s), fuel - 1);
    }
  }

  // ----- the scanline path over a whole run -----

  /** Once the driver has returned or `ok` is false, further scanline steps
      change nothing. */
  lemma {:induction false} ScanIdle(job: Job, n: nat, m: nat, s0: LoopState)
    requires job.spec.height > 0 && n <= m
    requires Scan(job, n, s0).stopped || !Scan(job, n, s0).ok
    ensures Scan(job, m, s0) == Scan(job, n, s0)
    decreases m
  {
    if m > n {
      ScanIdle(job, n, m - 1, s0);
    }
  }

  /** On the scanline path every write is a row inside the image at byte
      offset `z*zstride + y*ystride`, and the writes go plane by plane, row
      by row within a plane, never revisiting a row. */
  lemma ScanlineWritesInOrder(job: Job)
    requires Terminates(job) && !job.writer.rectangles && !TilePath(job)
    ensures var w := Writes(WriteImage(job).trace);
      forall i | 0 <= i < |w| ::
        && w[i].request.WriteScanline?
        && 0 <= w[i].request.y < job.spec.height && 0 <= w[i].request.z < job.spec.depth
        && w[i].request.offset == w[i].request.z * job.strides.z + w[i].request.y * job.strides.y
        && w[i].request.xstride == job.strides.x
    ensures var w := Writes(WriteImage(job).trace);
      forall i, j | 0 <= i < j < |w| ::
        w[i].request.z < w[j].request.z
        || (w[i].request.z == w[j].request.z && w[i].request.y < w[j].request.y)
  {
    var w := Writes(WriteImage(job).trace);
    WritesFollowLoopOrder(job);
    forall i | 0 <= i < |w|
      ensures var a := w[i].request;
        && a.WriteScanline? && 0 <= a.y < job.spec.height && 0 <= a.z < job.spec.depth
        && a.offset == a.z * job.strides.z + a.y * job.strides.y
        && a.xstride == job.strides.x
    {
      ScanlineBounds(job, i);
    }
    forall i, j | 0 <= i < j < |w|
      ensures w[i].request.z < w[j].request.z
        || (w[i].request.z == w[j].request.z && w[i].request.y < w[j].request.y)
    {
      ScanlineOrder(job, i, j);
    }
  }

  /** The shadowed `ok`: with no callback, a scanline writer whose first
      write fails gets no second write, yet the call returns true. */
  lemma FailedScanlineStillReturnsTrue(job: Job)
    requires !job.writer.rectangles && !TilePath(job) && !job.hasCallback
    requires job.spec.height > 0 && job.spec.depth > 0
    requires !job.env([], ScanlineAt(job, 0))
    ensures WriteImage(job) == Run([Event(ScanlineAt(job, 0), false)], true)
  {
    var s0 := LoopState([], true, false);
    assert Scan(job, 1, s0) == LoopState([Event(ScanlineAt(job, 0), false)], false, false);
    ScanIdle(job, 1, ScanlineCount(job), s0);
  }
}

=== FILE: write_loops.dfy ===
/** `write_image` as the nested loops the source runs, shown to produce the
    same calls and the same result as the reference definition in
    `WriteDriver`. */
module WriteLoops {
  import opened ImageTypes
  import opened WriteDriver
  import IndexMath

  /** Once the driver has returned, further rows of tiles change nothing. */
  lemma {:induction false} TilesIdle(job: Job, n: nat, m: nat, s0: LoopState)
    requires TileSteps(job) && n <= m && Tiles(job, n, s0).stopped
    ensures Tiles(job, m, s0) == Tiles(job, n, s0)
    decreases m
  {
    if m > n {
      TilesIdle(job, n, m - 1, s0);
    }
  }

  /** Once `ok` is false, further trips of a tile row's x loop change nothing. */
  lemma {:induction false} RowTilesIdle(job: Job, r: nat, n: nat, m: nat, s: LoopState)
    requires TileSteps(job) && n <= m && !RowTiles(job, r, n, s).ok
    ensures RowTiles(job, r, m, s) == RowTiles(job, r, n, s)
    decreases m
  {
    if m > n {
      RowTilesIdle(job, r, n, m - 1, s);
    }
  }

  /** `k` is the position, in loop order, of row `y` of plane `z`. */
  lemma ScanlineIndex(job: Job, z: nat, y: nat)
    requires 0 <= y < job.spec.height
    ensures ScanlineAt(job, z * job.spec.height + y)
      == WriteScanline(y, z, z * job.strides.z + y * job.strides.y, job.strides.x)
  {
    IndexMath.DivModUnique(z * job.spec.height + y, job.spec.height, z, y);
  }

  /** Row `iz * TilesDown + iy` of tiles sits at loop values
      `y = iy * tileHeight`, `z = iz * DepthStep`. */
  lemma TileRowIndex(job: Job, iz: nat, iy: nat)
    requires TileSteps(job) && iy < TilesDown(job)
    ensures RowY(job, iz * TilesDown(job) + iy) == iy * job.spec.tileHeight
    ensures RowZ(job, iz * TilesDown(job) + iy) == iz * DepthStep(job)
  {
    IndexMath.DivModUnique(iz * TilesDown(job) + iy, TilesDown(job), iz, iy);
  }

  /** One trip of the scanline y loop body (lines 223-228), from a state that
      still writes: scanline `k = z*height + y` is written, its result is
      folded into `ok`, and every 16th row is reported. */
  method ScanlineTrip(job: Job, s0: LoopState, z: nat, y: nat, ghost k: nat, st: LoopState)
    returns (st': LoopState)
    requires 0 <= y < job.spec.height && k == z * job.spec.height + y
    requires st == Scan(job, k, s0) && st.ok && !st.stopped
    ensures st' == Scan(job, k + 1, s0)
  {
    ScanlineIndex(job, z, y);
    var trace := Issue(job, st.trace, WriteScanline(y, z, z * job.strides.z + y * job.strides.y, job.strides.x));
    var ok := st.ok && Last(trace).answer;
    if job.hasCallback && y % 16 == 0 {
      trace := Issue(job, trace, Progress(y, job.spec.height));
      return LoopState(trace, ok, Last(trace).answer);
    }
    return LoopState(trace, ok, false);
  }

  /** When the driver returns after scanline `k = z*height + y`, the loops
      end there. */
  lemma ScanStoppedAt(job: Job, s0: LoopState, z: nat, y: nat, k: nat)
    requires !TilePath(job) && 0 <= y < job.spec.height && z < job.spec.depth
    requires k == z * job.spec.height + y && Scan(job, k + 1, s0).stopped
    ensures Loops(job, s0) == Scan(job, k + 1, s0)
  {
    IndexMath.MulMono(z + 1, job.spec.depth, job.spec.height);
    ScanIdle(job, k + 1, ScanlineCount(job), s0);
  }

  /** The y loop of plane `z` (lines 221-229): scanlines `z*height` up to
      `(z+1)*height`, stopping early when `ok` is false or when a callback
      answer makes the driver return. */
  method ScanPlane(job: Job, s0: LoopState, z: nat, ghost k0: nat, start: LoopState) returns (st: LoopState)
    requires !TilePath(job) && job.spec.height > 0 && z < job.spec.depth
    requires k0 == z * job.spec.height && start == Scan(job, k0, s0) && !start.stopped
    ensures st.stopped ==> st == Loops(job, s0)
    ensures !st.stopped ==> st == Scan(job, k0 + job.spec.height, s0)
  {
    st := start;
    var y := 0;
    ghost var k := k0;
    while y < job.spec.height && st.ok
      invariant 0 <= y <= job.spec.height && k == k0 + y
      invariant st == Scan(job, k, s0) && !st.stopped
      decreases job.spec.height - y
    {
      st := ScanlineTrip(job, s0, z, y, k, st);
      if st.stopped {
        ScanStoppedAt(job, s0, z, y, k);
        return;
      }
      y := y + 1;
      k := k + 1;
    }
    if y < job.spec.height {
      ScanIdle(job, k, k0 + job.spec.height, s0);
    }
  }

  /** The scanline loops of lines 219-230.  `ok` is declared once, outside
      the z loop, so a failed write ends the y loop of its own plane and of
      every later one.  With no rows the y loop never runs. */
  method ScanlineLoops(job: Job, s0: LoopState) returns (s: LoopState)
    requires !TilePath(job) && s0.ok && !s0.stopped
    ensures s == Loops(job, s0)
  {
    var h := job.spec.height;
    var st := s0;
    var z := 0;
    ghost var k: nat := 0;
    while z < job.spec.depth
      invariant if job.spec.depth > 0 then 0 <= z <= job.spec.depth else z == 0
      invariant !st.stopped
      invariant h > 0 ==> k == z * h && st == Scan(job, k, s0)
      invariant h <= 0 ==> st == s0
      decreases job.spec.depth - z
    {
      if h > 0 {
        st := ScanPlane(job, s0, z, k, st);
        if st.stopped {
          return st;
        }
        IndexMath.NextMultiple(z, h);
        k := k + h;
      }
      z := z + 1;
    }
    if h > 0 {
      assert k == h * job.spec.depth || job.spec.depth <= 0;
      assert k == ScanlineCount(job);
    }
    s := st;
  }

  /** The x loop of one row of tiles (line 211 with `x` advancing). */
  method TileRowLoop(job: Job, y: int, z: int, ghost iz: nat, ghost iy: nat, start: LoopState) returns (s: LoopState)
    requires TileSteps(job) && iy < TilesDown(job)
    requires y == iy * job.spec.tileHeight && z == iz * DepthStep(job)
    ensures s == RowTiles(job, iz * TilesDown(job) + iy, TilesAcross(job), start)
    ensures s.stopped == start.stopped
  {
    ghost var r := iz * TilesDown(job) + iy;
    TileRowIndex(job, iz, iy);
    s := start;
    var x := 0;
    ghost var ix := 0;
    while x < job.spec.width && s.ok
      invariant x == ix * job.spec.tileWidth && 0 <= ix <= TilesAcross(job)
      invariant s == RowTiles(job, r, ix, start) && s.stopped == start.stopped
      decreases job.spec.width - x
    {
      IndexMath.TripsBound(job.spec.width, job.spec.tileWidth, ix);
      s := TileTrip(job, x, y, z, r, ix, start, s);
      x := x + job.spec.tileWidth;
      ix := ix + 1;
    }
    IndexMath.TripsBound(job.spec.width, job.spec.tileWidth, ix);
    if ix < TilesAcross(job) {
      RowTilesIdle(job, r, ix, TilesAcross(job), start);
    }
  }

  /** One trip of the tile x loop body (line 213): tile `ix` of row `r` is
      written at byte offset `z*zstride + y*ystride + x*xstride` and its
      result folded into `ok`. */
  method TileTrip(job: Job, x: int, y: int, z: int, ghost r: nat, ghost ix: nat, start: LoopState, s: LoopState)
    returns (s': LoopState)
    requires TileSteps(job) && x == ix * job.spec.tileWidth && y == RowY(job, r) && z == RowZ(job, r)
    requires s == RowTiles(job, r, ix, start) && s.ok
    ensures s' == RowTiles(job, r, ix + 1, start) && s'.stopped == s.stopped
  {
    var trace := Issue(job, s.trace, WriteTile(x, y, z, z * job.strides.z + y * job.strides.y + x * job.strides.x, job.strides));
    return LoopState(trace, Last(trace).answer, s.stopped);
  }

  /** One trip of the tile y loop body (lines 208-216), from a state the
      driver has not returned from: the row's x loop, then the `y/height`
      report. */
  method TileRowTrip(job: Job, s0: LoopState, y: int, z: int, ghost iz: nat, ghost iy: nat, ghost r: nat,
                     st: LoopState) returns (st': LoopState)
    requires TileSteps(job) && iy < TilesDown(job) && r == iz * TilesDown(job) + iy
    requires y == iy * job.spec.tileHeight && z == iz * DepthStep(job)
    requires st == Tiles(job, r, s0) && !st.stopped
    ensures st' == Tiles(job, r + 1, s0)
  {
    TileRowIndex(job, iz, iy);
    var row := TileRowLoop(job, y, z, iz, iy, st);
    if job.hasCallback {
      var trace := Issue(job, row.trace, Progress(y, job.spec.height));
      return LoopState(trace, row.ok, Last(trace).answer);
    }
    return row;
  }

  /** A tile row inside the image is before the end of the loop. */
  lemma RowPositionInside(nz: nat, ny: nat, iz: nat, iy: nat)
    requires iz < nz && iy < ny
    ensures iz * ny + iy + 1 <= nz * ny
  {
    IndexMath.MulMono(iz + 1, nz, ny);
  }

  /** The loops end where the driver returned. */
  lemma TilesStoppedAt(job: Job, s0: LoopState, n: nat)
    requires TilePath(job) && Terminates(job) && n <= TileRowCount(job)
    requires Tiles(job, n, s0).stopped
    ensures Loops(job, s0) == Tiles(job, n, s0)
  {
    TilesIdle(job, n, TileRowCount(job), s0);
  }

  /** The y loop of tile plane `iz` (lines 201-217): rows
      `iz*TilesDown` up to `(iz+1)*TilesDown`, stopping early when a callback
      answer makes the driver return. */
  method TilePlane(job: Job, s0: LoopState, z: int, ghost iz: nat, ghost r0: nat, start: LoopState)
    returns (st: LoopState)
    requires TilePath(job) && Terminates(job) && iz < TilesDeep(job) && z == iz * DepthStep(job)
    requires r0 == iz * TilesDown(job) && start == Tiles(job, r0, s0) && !start.stopped
    ensures st.stopped ==> st == Loops(job, s0)
    ensures !st.stopped ==> st == Tiles(job, r0 + TilesDown(job), s0)
  {
    st := start;
    var y := 0;
    ghost var iy := 0;
    IndexMath.TripsBound(job.spec.height, job.spec.tileHeight, 0);
    while y < job.spec.height
      invariant y == iy * job.spec.tileHeight && 0 <= iy <= TilesDown(job)
      invariant st == Tiles(job, r0 + iy, s0) && !st.stopped
      decreases job.spec.height - y
    {
      IndexMath.TripsBound(job.spec.height, job.spec.tileHeight, iy);
      IndexMath.TripsBound(job.spec.height, job.spec.tileHeight, iy + 1);
      st := TileRowTrip(job, s0, y, z, iz, iy, r0 + iy, st);
      if st.stopped {
        RowPositionInside(TilesDeep(job), TilesDown(job), iz, iy);
        TilesStoppedAt(job, s0, r0 + iy + 1);
        return;
      }
      IndexMath.NextMultiple(iy, job.spec.tileHeight);
      y := y + job.spec.tileHeight;
      iy := iy + 1;
    }
    IndexMath.TripsBound(job.spec.height, job.spec.tileHeight, iy);
  }

  /** The tile loops of lines 199-218: z, then y, then x, each advancing by
      the tile extent, with the `y/height` progress call after every row. */
  method TileLoops(job: Job, s0: LoopState) returns (s: LoopState)
    requires TilePath(job) && Terminates(job) && s0.ok && !s0.stopped
    ensures s == Loops(job, s0)
  {
    var st := s0;
    var step := DepthStep(job);
    var z := 0;
    ghost var iz := 0;
    ghost var r: nat := 0;
    IndexMath.TripsBound(job.spec.depth, step, 0);
    while z < job.spec.depth
      invariant z == iz * step && 0 <= iz <= TilesDeep(job)
      invariant r == iz * TilesDown(job) && st == Tiles(job, r, s0) && !st.stopped
      decreases job.spec.depth - z
    {
      IndexMath.TripsBound(job.spec.depth, step, iz);
      IndexMath.TripsBound(job.spec.depth, step, iz + 1);
      st := TilePlane(job, s0, z, iz, r, st);
      if st.stopped {
        return st;
      }
      IndexMath.NextMultiple(iz, TilesDown(job));
      IndexMath.NextMultiple(iz, step);
      r := r + TilesDown(job);
      z := z + step;
      iz := iz + 1;
    }
    IndexMath.TripsBound(job.spec.depth, step, iz);
    s := st;
  }

  /** `write_image` (lines 182-236) as the source structures it: the
      rectangle call, the initial 0.0 callback, the tile or scanline loops,
      the final 1.0 callback, and the return of the outer `ok`, which no
      failed write ever clears. */
  method WriteImageLoops(job: Job) returns (r: Run)
    requires Terminates(job)
    ensures r == WriteImage(job)
  {
    if job.writer.rectangles {
      var t := Issue(job, [], WriteRectangle(FullImage(job.spec), job.strides));
      return Run(t, Last(t).answer);
    }
    var ok := true;
    var trace: seq<Event> := [];
    if job.hasCallback {
      trace := Issue(job, trace, Progress(0, 1));
      if Last(trace).answer {
        return Run(trace, ok);
      }
    }
    var s0 := LoopState(trace, true, false);
    var s;
    if TilePath(job) {
      s := TileLoops(job, s0);
    } else {
      s := ScanlineLoops(job, s0);
    }
    if s.stopped {
      return Run(s.trace, s.ok);
    }
    trace := s.trace;
    if job.hasCallback {
      trace := Issue(job, trace, Progress(1, 1));
    }
    return Run(trace, ok);
  }
}
